=== FILE: README.md ===
# Online notes: submission pipeline model

This project models the core of the "Online Notes" PHP application. An
anonymous visitor submits a title and a text through a form. The page checks a
session-bound CSRF token and an arithmetic CAPTCHA. It sanitises both fields,
derives a safe file name from the title, resolves name collisions, writes the
note into a folder and lists the newest public notes back. The repository holds
four variants of the same page, and the model covers each one as its own module:

- `NoteV1` (`olnote-v1.php`): fixed field names; `trim`, then `stripslashes`, then
  `htmlspecialchars`. A do-while loop tries `name`, `name-2`, `name-3`, ..., and
  the empty and length checks run on the name the loop settles on. An AJAX request
  gets the status fragment only and ends before a new CAPTCHA is drawn.
- `NoteV2` (`olnote-v2.php`): field names carry a per-session random prefix.
  The sanitiser is `trim` then `htmlspecialchars`, with no `stripslashes`. The
  checks run on the base name, and a while loop tries `name`, `name-1`, `name-2`, ...
- `NoteV3` (`olnote-v3.php`): the same pipeline as a `NoteManager` class, with
  `stripslashes` back in the sanitiser. The listing sorts every directory entry,
  dots included, and skips the dots while printing.
- `NoteV4` (`olnote-v4.php`): `stripslashes` runs before `trim`, and the name
  filter also drops `.`. A ticked "private" box sends the note to `pvt/` under
  `name-<8 hex digits>`. A public note is written to `txt/name.txt` even if that
  file exists. The listing shows the first five names in `scandir`'s ascending
  order, not the newest five.

The shared pieces are modelled once:

- `Sanitizer`: PHP's `trim`, `stripslashes` and `htmlspecialchars(ENT_QUOTES)`,
  with the inverses that state what each one keeps.
- `FileName`: `basename`, the character whitelist, PHP's `empty()`, and the
  collision search.
- `Store`: the file system as a map from path to content, plus folder membership.
- `Challenge`: session, request, token, prefix and CAPTCHA.
- `Listing`: the mtime sort, dot removal and the five-entry cut.
- `Pipeline`: outcomes, and the check-then-write step shared by the variants.
- `Variants`: lemmas that compare the variants with each other.

The file system, the request and the random draws are parameters:

- A request is `Option<Post>`; `None` stands for a non-POST request.
- `writeOk` says whether `file_put_contents` returns a byte count rather than `false`.
- `Entropy` carries the bytes and the two CAPTCHA operands the script would draw.

The model follows the code where it is surprising:

- v1 counts from `-2` and checks the suffixed name.
- v2 does not strip backslashes.
- v4 does not resolve collisions for public notes and does not sort its listing.
- A request that fails the token check ends before a new CAPTCHA is drawn.
- The filter deletes a space rather than replacing it, so `My Note!` becomes `MyNote`.

## Model

| member | source | states |
|---|---|---|
| Numbers.NatToString | olnote-v1.php:82 | the decimal form PHP gives `$counter` is non-empty and all digits |
| Numbers.ParseNatToString | olnote-v1.php:82 | reading the decimal form back gives the counter: distinct counters give distinct suffixes |
| Numbers.NatToStringInjective | olnote-v2.php:78 | distinct counters never spell the same suffix |
| Numbers.Hex | olnote-v1.php:52 | `bin2hex` gives two lower-case hex digits per byte |
| Numbers.UnhexHex | olnote-v2.php:46 | the hex string spells exactly the random bytes drawn |
| Sanitizer.Trim | olnote-v1.php:44 | `trim` returns a contiguous slice of the input with no outer whitespace, and everything cut off is whitespace |
| Sanitizer.TrimIdempotent | olnote-v1.php:44 | trimming twice is trimming once |
| Sanitizer.StripSlashes | olnote-v1.php:45 | `stripslashes` never lengthens the text |
| Sanitizer.StripSlashesWithoutBackslash | olnote-v1.php:45 | text without a backslash passes `stripslashes` unchanged |
| Sanitizer.StripSlashesAddSlashes | olnote-v1.php:45 | `stripslashes` undoes `addslashes`, `\0` included |
| Sanitizer.HtmlEscape | olnote-v1.php:46 | the escaped text holds none of `<`, `>`, `"`, `'` raw and is no shorter than the input |
| Sanitizer.HtmlDecodeEscape | olnote-v1.php:46 | decoding the five entities recovers the original text: escaping loses nothing |
| Sanitizer.EscapeKeepsNoOuterSpace | olnote-v2.php:35 | escaping a trimmed text leaves it trimmed |
| Sanitizer.SanitizeTrimFirst | olnote-v1.php:43-48 | the stored text has no markup and decodes to `stripslashes(trim(input))` |
| Sanitizer.SanitizeNoStrip | olnote-v2.php:34-36 | the stored text has no markup or outer whitespace and decodes to `trim(input)` |
| Sanitizer.SanitizeStripFirst | olnote-v4.php:48-50 | the stored text has no markup or outer whitespace and decodes to `trim(stripslashes(input))` |
| Store.NotePath | olnote-v1.php:84 | the path `"$folder/$filename.txt"` a note is written under (also olnote-v4.php:80) |
| Store.NotePathInjective | olnote-v1.php:84 | distinct names give distinct `txt/<name>.txt` paths |
| Store.NotePathInside | olnote-v1.php:84 | a name without `/` gives a path directly inside the folder, so the write cannot leave it |
| Store.InsideOneFolder | olnote-v4.php:74 | a path lies directly inside at most one folder |
| Store.NameBefore | olnote-v4.php:99 | the byte order `scandir` sorts by under the C locale: the first differing character decides, and a proper prefix comes first |
| Store.NameBeforeStrict | olnote-v4.php:99 | that order is strict: never both ways, never a name before itself |
| Store.AscendingNames | olnote-v4.php:99 | each entry sorts strictly before every later one |
| Store.ListsFolder | olnote-v1.php:190 | what `scandir` returns: `.`, `..` and the name of every file directly in the folder, ascending by name |
| Store.OverwriteKeepsKeys | olnote-v4.php:83 | writing an existing path replaces its content and adds no file |
| Store.Write | olnote-v1.php:92 | a successful write adds or replaces exactly one file and leaves every other file as it was |
| Store.ListsFolderAfterWriteElsewhere | olnote-v4.php:74-83 | writing into another folder keeps a directory listing of this folder accurate |
| FileName.PhpEmpty | olnote-v1.php:88 | PHP's `empty()` on a string: true for `""` and `"0"` only |
| FileName.NameCharsHaveNoSlash | olnote-v1.php:75 | a whitelisted name holds no `/` |
| FileName.Basename | olnote-v1.php:72 | `basename` returns the last path segment, after trailing slashes, and it holds no `/` |
| FileName.NameCharsWithoutDot | olnote-v4.php:67 | a name within the narrower whitelist holds no `.` |
| FileName.BasenameNoSlash | olnote-v1.php:72 | a text without `/` is its own basename |
| FileName.Filter | olnote-v1.php:75 | `preg_replace` keeps exactly the whitelisted characters, each as often as in the input |
| FileName.FilterAppend | olnote-v4.php:67 | the filter works character by character: filtering a concatenation filters each part |
| FileName.FilterAllowed | olnote-v1.php:75 | a name already within the whitelist passes the filter unchanged |
| FileName.Derive | olnote-v1.php:72-75 | the derived name is whitelisted, holds no `/` and is no longer than the sanitised title |
| FileName.Suffixed | olnote-v1.php:82 | the candidate `$base_filename . "-" . $counter` (also olnote-v2.php:78) |
| FileName.SuffixedAlphabet | olnote-v1.php:82 | `name-<n>` stays within the whitelist and is at least two characters longer |
| FileName.SuffixedInjective | olnote-v2.php:78-79 | different counters give different candidate paths |
| FileName.FreeFrom | olnote-v2.php:77-81 | the loop stops at the first counter whose path is free, and every counter before it is taken |
| FileName.Resolve | olnote-v1.php:80-86 | the candidate picked is free and every earlier candidate is taken |
| FileName.FirstFreeUnique | olnote-v1.php:80-86 | there is only one such first free candidate |
| FileName.ResolvedPathIsNew | olnote-v2.php:77-81 | the resolved path does not exist before the write |
| Challenge.Held | olnote-v2.php:39-47 | a session secret counts as present exactly when `empty()` is false for it |
| Challenge.PrefixOf | olnote-v2.php:48 | the field prefix of the session, an unset prefix concatenating as the empty string |
| Challenge.TextField | olnote-v2.php:62-63 | a posted text field, a missing one read as the empty string |
| Challenge.CsrfOk | olnote-v1.php:61 | the posted token is set and identical to the session's |
| Challenge.CaptchaOk | olnote-v1.php:70 | the posted answer and the stored answer are both set and equal |
| Challenge.Establish | olnote-v2.php:39-47 | a held secret is kept; a missing or empty one becomes the hex form of the drawn bytes |
| Challenge.EnsureToken | olnote-v1.php:51-53 | after it the session holds a token; an existing token is kept, and a new one is 64 hex digits |
| Challenge.EnsurePrefix | olnote-v2.php:45-47 | after it the session holds a prefix; an existing prefix is kept, and a new one is 16 hex digits |
| Challenge.EnsureSecrets | olnote-v3.php:28-35 | the constructor leaves a token and a prefix in the session, keeps existing ones, and makes a new prefix 16 hex digits |
| Challenge.SecretsAreStable | olnote-v3.php:28-35 | constructing again with fresh random bytes changes neither token nor prefix |
| Challenge.IssueCaptcha | olnote-v1.php:109-114 | the stored answer is the sum of the two operands, between 2 and 20, and the token and prefix stay; `generateCaptcha()` in olnote-v3.php and olnote-v4.php does the same |
| Listing.MTime | olnote-v1.php:192 | `filemtime` of an entry, with a failed lookup read as 0 |
| Listing.WithoutDots | olnote-v1.php:190 | `array_diff` drops exactly `.` and `..`, and keeps every other entry |
| Listing.WithoutDotsCounts | olnote-v1.php:190 | each kept entry appears exactly as often as in the input, and a dot not at all |
| Listing.WithoutDotsSubMultiset | olnote-v1.php:190 | dropping the dots adds no entry and repeats none |
| Listing.WithoutDotsSameSize | olnote-v1.php:190-193 | reordering a listing, as `usort` does, keeps the number of non-dot entries |
| Listing.WithoutDotsAppend | olnote-v4.php:99 | dropping dots works entry by entry, so the kept entries stay in their order |
| Listing.WithoutDotsAscending | olnote-v4.php:99 | dropping the dots from an ascending listing leaves it ascending |
| Listing.Insert | olnote-v1.php:191-193 | inserting keeps the list newest first and adds exactly one entry |
| Listing.SortNewestFirst | olnote-v1.php:191-193 | `usort` returns a permutation of the entries ordered by modification time, newest first |
| Listing.InsertWithKey | olnote-v1.php:191-193 | one insertion step places the new entry ahead of the entries as old as it and reorders no two entries of equal time |
| Listing.SortKeepsTiedOrder | olnote-v1.php:191-193 | the sort is stable: entries with equal times keep their `scandir` order, so a tie at the fifth place goes to the entry listed first |
| Listing.Take | olnote-v1.php:195-203 | the loop prints a prefix of the list of length min(5, size) |
| Listing.TakeKeepsNewest | olnote-v2.php:164-173 | the printed prefix stays sorted, and nothing left out is newer than anything printed |
| Listing.NewestFive | olnote-v1.php:189-209 | at most five non-dot entries, newest first, each shown no more often than `scandir` lists it; exactly min(5, non-dot entries) of them; nothing left out is newer than anything shown (olnote-v2.php:154-181 lists the same way) |
| Listing.SortWithoutDots | olnote-v3.php:103-111 | sorting then dropping dots equals dropping dots then sorting |
| Listing.InsertWithoutDots | olnote-v3.php:103-111 | dropping dots commutes with one insertion step of the sort |
| Listing.SortThenSkipDots | olnote-v3.php:99-120 | at most five entries and none of them a dot |
| Listing.SortThenSkipIsNewestFive | olnote-v3.php:96-130 | olnote-v3.php's listing shows the same notes in the same order as olnote-v1.php's |
| Listing.FirstFive | olnote-v4.php:96-112 | the first entries of the dot-free listing, in `scandir` order: exactly min(5, non-dot entries) of them, each no more often than listed, empty exactly when only dots exist |
| Listing.FirstFiveSmallestNames | olnote-v4.php:99-106 | every public name shown sorts before every public name left out |
| Listing.FirstFiveOfSample | olnote-v4.php:99-106 | of `.`, `..`, `a`, `b` the unsorted listing shows `a`, `b` |
| Listing.NewestFiveOfSample | olnote-v1.php:190-193 | of the same entries, with `b` newer, the sorted listing shows `b`, `a` |
| Listing.SampleAscending | olnote-v4.php:99 | `.`, `..`, `a`, `b` is in the order `scandir` returns |
| Listing.FirstFiveIgnoresAge | olnote-v4.php:99-106 | for a genuine `scandir` listing, olnote-v4.php's listing can show an older note before a newer one, where the sorted listing would not |
| Pipeline.Save | olnote-v1.php:92-97 | the note is written exactly when the write succeeds, replacing or adding only that file; a failed write is reported as a storage error and, in the model, leaves the files as they were (see Left out) |
| Pipeline.CheckThenSave | olnote-v1.php:88-97 | empty, too long, storage error or saved, each exactly under its condition; only a save changes the files |
| Pipeline.SaveUnderFreeName | olnote-v2.php:67-90 | the checks see the base name; a save goes to a path that did not exist, inside the folder, adding only that file |
| NoteV1.Base | olnote-v1.php:72-75 | the name before the collision loop is whitelisted |
| NoteV1.Chosen | olnote-v1.php:77-86 | the name the loop settles on is whitelisted and its path is free |
| NoteV1.Submit | olnote-v1.php:61-101 | each outcome exactly under its condition, the checks on the suffixed name, so a name that passes the checks is saved exactly when the write succeeds; a save writes the sanitised text to a new whitelisted path in `txt/` and nothing else |
| NoteV1.Serve | olnote-v1.php:51-114 | the token is created once and kept; a POST gets exactly the outcome and files of `Submit` run on the session with its token, so it is refused as invalid exactly when the token does not match; a forged or AJAX request keeps the old CAPTCHA; otherwise the new answer is the drawn sum |
| NoteV1.SavedUnderFirstFree | olnote-v1.php:77-94 | the note is saved under the first free one of `name`, `name-2`, `name-3`, ... |
| NoteV1.NeverSuffixOne | olnote-v1.php:80-86 | the name `name-1` is never used |
| NoteV1.TakenNameLonger | olnote-v1.php:80-86 | a taken base name is lengthened by at least two characters |
| NoteV1.ChosenTooLong | olnote-v1.php:90-91 | an over-long chosen name is refused as too long |
| NoteV1.TakenLongNameTooLong | olnote-v1.php:80-91 | a taken base of 49 or 50 characters is refused as too long, though the base alone passes |
| NoteV1.EmptyBaseRefused | olnote-v1.php:88-89 | a title that filters to nothing is refused while `txt/.txt` is absent |
| NoteV1.EmptyBaseSavedAsDashTwo | olnote-v1.php:80-94 | once `txt/.txt` exists, the same title is saved as `txt/-2.txt` |
| NoteV1.DashTwo | olnote-v1.php:82-84 | the second candidate of an empty base is `-2`, which `empty()` accepts |
| NoteV1.ZeroRefused | olnote-v1.php:88 | a name `0` is refused as empty |
| NoteV1.ForgedRequestChangesNothing | olnote-v1.php:61-68 | a bad token writes nothing and draws no new CAPTCHA |
| NoteV1.WrongCaptchaWritesNothing | olnote-v1.php:70-101 | a wrong or missing answer, or no stored answer, writes nothing |
| NoteV2.Title | olnote-v2.php:62 | the title read from the prefixed `filename` field |
| NoteV2.Content | olnote-v2.php:63 | the prefixed `content` field after olnote-v2.php's sanitiser |
| NoteV2.Base | olnote-v2.php:62-65 | the name the checks see is whitelisted |
| NoteV2.Submit | olnote-v2.php:55-94 | each outcome exactly under its condition, the checks on the base name, so a name that passes the checks is saved exactly when the write succeeds; a save writes the sanitised text to a new path in `txt/` and nothing else |
| NoteV2.Serve | olnote-v2.php:38-103 | token and prefix are created once and kept; a POST gets exactly the outcome and files of `Submit` run on the session with its secrets, so it is refused as invalid exactly when the token does not match; a forged request keeps the old CAPTCHA; otherwise the new answer is the drawn sum |
| NoteV2.SavedUnderFirstFree | olnote-v2.php:72-86 | the note is saved under the first free one of `name`, `name-1`, `name-2`, ... |
| NoteV2.SameTitleTwice | olnote-v2.php:72-86 | the same title submitted twice is saved as `name`, then as `name-1` |
| NoteV2.LongNameSuffixedPastLimit | olnote-v2.php:67-81 | a taken 50-character base is saved as `txt/<base>-1.txt`, a 52-character name |
| NoteV2.UnprefixedCaptchaIgnored | olnote-v2.php:60 | without the prefixed CAPTCHA field the request is refused and nothing is written |
| NoteV2.ForgedRequestChangesNothing | olnote-v2.php:54-58 | a bad token writes nothing and draws no new CAPTCHA |
| NoteV3.Title | olnote-v3.php:60 | the title read from the prefixed `filename` field |
| NoteV3.Content | olnote-v3.php:61 | the prefixed `content` field after olnote-v3.php's sanitiser |
| NoteV3.Base | olnote-v3.php:60-63 | the name the checks see is whitelisted |
| NoteV3.HandleFormSubmission | olnote-v3.php:49-94 | a non-POST request does nothing; otherwise each outcome exactly under its condition, so a name that passes the checks is saved exactly when the write succeeds, and a save writes a new path in `txt/` |
| NoteV3.Serve | olnote-v3.php:156-161 | secrets held afterwards; the outcome and files are exactly those of `HandleFormSubmission` on the constructed session, so a POST is refused as invalid exactly when the token does not match; a forged request keeps the old CAPTCHA; otherwise the new answer is the drawn sum |
| NoteV3.ForgedRequestChangesNothing | olnote-v3.php:51-54 | a bad token writes nothing and draws no new CAPTCHA |
| NoteV3.SavedUnderFirstFree | olnote-v3.php:71-84 | the note is saved under the first free one of `name`, `name-1`, ... |
| NoteV3.DisplayNotes | olnote-v3.php:96-130 | at most five non-dot entries, newest first |
| NoteV3.DisplayNotesAsOlderVariants | olnote-v3.php:96-130 | the listing equals the one that drops the dots before sorting |
| NoteV4.Title | olnote-v4.php:63 | the title read from the prefixed `filename` field |
| NoteV4.Content | olnote-v4.php:64 | the prefixed `content` field after olnote-v4.php's sanitiser |
| NoteV4.Base | olnote-v4.php:63-67 | the name the checks see is whitelisted and holds no `.` |
| NoteV4.IsPrivate | olnote-v4.php:65 | the prefixed private checkbox field is present |
| NoteV4.Destination | olnote-v4.php:74-79 | a private note goes to `pvt/` under its suffixed name, a public one to `txt/` under its base name; the name holds no `.` |
| NoteV4.PrivateName | olnote-v4.php:76-79 | a private name is the base, `-`, and eight hex digits that spell the four random bytes |
| NoteV4.HandleFormSubmission | olnote-v4.php:52-94 | each outcome exactly under its condition, so an admitted, non-empty, short enough name is saved exactly when the write succeeds; the link is `pvt/<name>-<hex>.txt` when private and `txt/<name>.txt` otherwise, and the saved text is the sanitised content |
| NoteV4.Serve | olnote-v4.php:125-130 | secrets held afterwards; the outcome and files are exactly those of `HandleFormSubmission` on the constructed session, so a POST is refused as invalid exactly when the token does not match; a forged request keeps the old CAPTCHA; otherwise the new answer is the drawn sum |
| NoteV4.ForgedRequestChangesNothing | olnote-v4.php:54-57 | a bad token writes nothing and draws no new CAPTCHA |
| NoteV4.PublicNoteOverwrites | olnote-v4.php:74-83 | a public note whose name is taken replaces the old note and adds no file |
| NoteV4.PrivateNoteName | olnote-v4.php:69-81 | a private note is saved as `pvt/<name>-<hex>.txt`, a name of at most 59 characters |
| NoteV4.PrivateNoteUnlisted | olnote-v4.php:74-84 | saving a private note leaves any listing of `txt/` as it was |
| Variants.SanitizersAgreeWithoutBackslash | olnote-v3.php:42-47 | without a backslash the three sanitisers agree |
| Variants.V3AgreesWithV2WithoutBackslash | olnote-v3.php:49-94 | on input without a backslash, olnote-v3.php stores the same note under the same name as olnote-v2.php |
| Variants.SameSavedTextSameEffect | olnote-v3.php:60-84 | equal names and texts give the two class and script versions equal effects |
| Variants.TrimFirstKeepsEscapedSpace | olnote-v4.php:49 | `\ x` keeps a leading space when trimmed first, and loses it when stripped first |
| Variants.StripSlashesShortens | olnote-v1.php:45 | `stripslashes` shortens every text holding a backslash |
| Variants.StripSlashesFixed | olnote-v1.php:45 | `stripslashes` leaves a text unchanged exactly when it holds no backslash |
| Variants.EscapeInjective | olnote-v1.php:46 | different texts escape differently |
| Variants.V2DiffersExactlyOnBackslash | olnote-v2.php:34-36 | olnote-v2.php stores another text than olnote-v1.php exactly when the trimmed input holds a backslash |
| Variants.FiltersAgreeWithoutDot | olnote-v4.php:67 | without a `.` both filters agree |
| Variants.V4FilterDiffersExactlyOnDot | olnote-v4.php:67 | the olnote-v4.php filter differs from the others exactly when the text holds a `.` |

## Left out

- HTML rendering, the theme toggle and its redirect, and the escaping of listed names are presentation, not the pipeline.
- The AJAX header test is left out; `NoteV1.Serve` takes a `fragmentOnly` flag instead.
- Directory creation (`mkdir`) and permissions are left out. A folder is the set of paths that begin with its name, and `writeOk` stands for every way `file_put_contents` can fail.
- `random_bytes` and `random_int` are inputs (`Entropy`), not draws, so the model says nothing about the chance of a private-name collision.
- `scandir` and `filemtime` are inputs. `scandir` gives a sequence of entries and `filemtime` a map of times. `Store.ListsFolder` relates the entries to the file map, and a missing time counts as 0, the integer PHP gives `false`.
- PHP's loose `==` on the CAPTCHA is left out. A request carries the integer reading of its CAPTCHA field, or none; it carries no raw string.
- A missing title or content field reads as the empty string, as PHP's `trim(null)` does.
- Strings are sequences of characters. Invalid UTF-8, which makes `htmlspecialchars` return an empty string, is not modelled.
- Concurrent requests and the race between the existence check and the write are left out; each request runs alone against one file map.
- `scandir` sorts with `strcoll`, so under a locale other than C the listing order of olnote-v4.php can differ from the byte order `Store.NameBefore` models; the locale is left out and taken to be PHP's default C.
- Entries with equal times keep their `scandir` order (`Listing.SortKeepsTiedOrder`), as `usort` does since PHP 8; older PHP versions may order them differently.
- The status messages are left out; the outcome stands for the message set. After a failed token check the request ends with the old CAPTCHA. In olnote-v1.php an AJAX request still gets "Invalid request." echoed (olnote-v1.php:63-65); the other variants end without showing it.
- Pipeline.Save: a failed write is modelled as leaving the files unchanged. `file_put_contents` opens the file with mode `wb` before writing, so a write that fails part way (a full disk, say) can leave an empty or truncated file, created or overwritten. For a public note in olnote-v4.php this can lose the old note under the same name; the model does not promise anything about that case.
- Array-valued fields (`filename[]=x`) are left out: a `Post` maps each field to one string. In PHP 8 `trim` (in olnote-v4.php `stripslashes`) then throws a `TypeError` (olnote-v1.php:44, olnote-v2.php:35, olnote-v3.php:43, olnote-v4.php:49), so the script dies with no write and no new CAPTCHA drawn.

=== FILE: challenge.dfy ===
/**
 The session-held challenge state -- CSRF token, field-name prefix and the
 arithmetic CAPTCHA answer -- and the two checks a submission must pass.
 */
module Challenge {
  import opened Wrappers
  import opened Numbers
  import FileName

  /** `$_SESSION`: each entry may be unset. */
  datatype Session = Session(csrfToken: Option<string>, fieldPrefix: Option<string>, captchaAnswer: Option<int>)

  /**
   `$_POST`. `fields` holds every submitted field as text; `answers` holds, for
   each field whose text PHP's loose `==` reads as an integer, that integer.
   */
  datatype Post = Post(fields: map<string, string>, answers: map<string, int>)

  /**
   The random values one request draws: `random_bytes(32)` for a token,
   `random_bytes(8)` for a prefix, `random_bytes(4)` for a private suffix, and
   two `random_int(1, 10)` operands.
   */
  datatype Entropy = Entropy(tokenBytes: seq<byte>, prefixBytes: seq<byte>, suffixBytes: seq<byte>, num1: int, num2: int)
  {
    predicate Valid() {
      && |tokenBytes| == 32
      && |prefixBytes| == 8
      && |suffixBytes| == 4
      && 1 <= num1 <= 10
      && 1 <= num2 <= 10
    }
  }

  /** The name of the hidden CSRF field; it never carries the prefix. */
  const CsrfField := "csrf_token"

  /** A session entry PHP's `empty()` considers set. */
  predicate Held(v: Option<string>) {
    v.Some? && !FileName.PhpEmpty(v.value)
  }

  /** `if (empty($entry)) $entry = bin2hex($bytes);` -- the lazy creation of a session secret. */
  function Establish(current: Option<string>, bytes: seq<byte>): (r: Option<string>)
    requires 1 <= |bytes|
    ensures Held(r)
    ensures Held(current) ==> r == current
    ensures !Held(current) ==> |r.value| == 2 * |bytes| && AllLowerHex(r.value) && Unhex(r.value) == bytes
  {
    if Held(current) then current
    else
      UnhexHex(bytes);
      Some(Hex(bytes))
  }

  /** Creates the CSRF token from 32 random bytes when the session has none. */
  function EnsureToken(s: Session, bytes: seq<byte>): (r: Session)
    requires |bytes| == 32
    ensures Held(r.csrfToken)
    ensures Held(s.csrfToken) ==> r == s
    ensures !Held(s.csrfToken) ==> |r.csrfToken.value| == 64 && AllLowerHex(r.csrfToken.value)
    ensures r.fieldPrefix == s.fieldPrefix && r.captchaAnswer == s.captchaAnswer
  {
    s.(csrfToken := Establish(s.csrfToken, bytes))
  }

  /** Creates the field prefix from 8 random bytes when the session has none. */
  function EnsurePrefix(s: Session, bytes: seq<byte>): (r: Session)
    requires |bytes| == 8
    ensures Held(r.fieldPrefix)
    ensures Held(s.fieldPrefix) ==> r == s
    ensures !Held(s.fieldPrefix) ==> |r.fieldPrefix.value| == 16 && AllLowerHex(r.fieldPrefix.value)
    ensures r.csrfToken == s.csrfToken && r.captchaAnswer == s.captchaAnswer
  {
    s.(fieldPrefix := Establish(s.fieldPrefix, bytes))
  }

  /** Creates whichever of the token and the prefix the session lacks, the token first. */
  function EnsureSecrets(s: Session, entropy: Entropy): (r: Session)
    requires entropy.Valid()
    ensures Held(r.csrfToken) && Held(r.fieldPrefix)
    ensures Held(s.csrfToken) ==> r.csrfToken == s.csrfToken
    ensures Held(s.fieldPrefix) ==> r.fieldPrefix == s.fieldPrefix
    ensures !Held(s.fieldPrefix) ==> |r.fieldPrefix.value| == 16 && AllLowerHex(r.fieldPrefix.value)
    ensures r.captchaAnswer == s.captchaAnswer
  {
    EnsurePrefix(EnsureToken(s, entropy.tokenBytes), entropy.prefixBytes)
  }

  /** Once created, neither secret is replaced by a later request's random bytes. */
  lemma SecretsAreStable(s: Session, e1: Entropy, e2: Entropy)
    requires e1.Valid() && e2.Valid()
    ensures EnsureSecrets(EnsureSecrets(s, e1), e2) == EnsureSecrets(s, e1)
  {
  }

  /** The prefix the field names carry: an unset prefix concatenates as "". */
  function PrefixOf(s: Session): string {
    s.fieldPrefix.GetOr("")
  }

  /** `$_SESSION["captcha_answer"] = $num1 + $num2;` for two operands in [1, 10]. */
  function IssueCaptcha(s: Session, num1: int, num2: int): (r: Session)
    requires 1 <= num1 <= 10 && 1 <= num2 <= 10
    ensures r.captchaAnswer.Some? && 2 <= r.captchaAnswer.value <= 20
    ensures r.captchaAnswer == Some(num1 + num2)
    ensures r.csrfToken == s.csrfToken && r.fieldPrefix == s.fieldPrefix
  {
    s.(captchaAnswer := Some(num1 + num2))
  }

  /** `isset($_POST['csrf_token']) && $_POST['csrf_token'] === $token`, where an unset token matches nothing. */
  predicate CsrfOk(post: Post, token: Option<string>) {
    CsrfField in post.fields && token.Some? && post.fields[CsrfField] == token.value
  }

  /** `isset($_POST[$key]) && isset($_SESSION["captcha_answer"]) && $_POST[$key] == $_SESSION["captcha_answer"]`. */
  predicate CaptchaOk(post: Post, key: string, answer: Option<int>) {
    key in post.answers && answer.Some? && post.answers[key] == answer.value
  }

  /** `$_POST[$key]` as text; an unset field reads as the empty string once trimmed. */
  function TextField(post: Post, key: string): string {
    if key in post.fields then post.fields[key] else ""
  }
}

=== FILE: filename.dfy ===
/**
 Turning a sanitised title into the name a note is stored under: PHP's
 `basename`, the character whitelist of `preg_replace`, PHP's `empty()`, and
 the search for a name no existing file uses.
 */
module FileName {
  import opened Numbers
  import opened Store

  /** PHP's `empty()` on a string: true for "" and also for "0". */
  predicate PhpEmpty(s: string) {
    |s| == 0 || (|s| == 1 && s[0] == '0')
  }

  /** The longest name the variants accept. */
  const MaxNameLength := 50

  /** `[A-Za-z0-9_.-]` when `dotAllowed`, else `[A-Za-z0-9_-]` (olnote-v4.php). */
  predicate IsNameChar(c: char, dotAllowed: bool) {
    || 'a' <= c <= 'z' || 'A' <= c <= 'Z' || '0' <= c <= '9'
    || c == '_' || c == '-' || (dotAllowed && c == '.')
  }

  predicate AllNameChars(s: string, dotAllowed: bool) {
    forall i :: 0 <= i < |s| ==> IsNameChar(s[i], dotAllowed)
  }

  lemma NameCharsHaveNoSlash(s: string, dotAllowed: bool)
    requires AllNameChars(s, dotAllowed)
    ensures '/' !in s
  {
    assert forall i :: 0 <= i < |s| ==> s[i] != '/';
  }

  /** The olnote-v4.php whitelist admits no `.`. */
  lemma NameCharsWithoutDot(s: string)
    requires AllNameChars(s, false)
    ensures '.' !in s
  {
    assert forall i :: 0 <= i < |s| ==> s[i] != '.';
  }

  function DropTrailingSlashes(s: string): (r: string)
    ensures |r| <= |s| && r == s[..|r|]
    ensures forall k :: |r| <= k < |s| ==> s[k] == '/'
    ensures r == [] || r[|r| - 1] != '/'
  {
    if s != [] && s[|s| - 1] == '/' then DropTrailingSlashes(s[..|s| - 1]) else s
  }

  function LastSegment(s: string): (r: string)
    ensures |r| <= |s| && r == s[|s| - |r|..]
    ensures '/' !in r
    ensures |r| == |s| || s[|s| - |r| - 1] == '/'
  {
    if s == [] || s[|s| - 1] == '/' then []
    else LastSegment(s[..|s| - 1]) + [s[|s| - 1]]
  }

  /**
   PHP's `basename` on a POSIX host: the last run of characters other than `/`,
   ignoring any slashes that end the string.
   */
  function Basename(s: string): (r: string)
    ensures '/' !in r
    ensures var t := DropTrailingSlashes(s);
            |r| <= |t| && r == t[|t| - |r|..] && (|r| == |t| || t[|t| - |r| - 1] == '/')
  {
    LastSegment(DropTrailingSlashes(s))
  }

  lemma {:induction false} LastSegmentNoSlash(s: string)
    requires '/' !in s
    ensures LastSegment(s) == s
  {
    if s != [] {
      assert '/' !in s[..|s| - 1];
      LastSegmentNoSlash(s[..|s| - 1]);
    }
  }

  /** A title that holds no `/` is its own base name. */
  lemma BasenameNoSlash(s: string)
    requires '/' !in s
    ensures Basename(s) == s
  {
    LastSegmentNoSlash(s);
  }

  /**
   `preg_replace('/[^a-zA-Z0-9\_\-\.]/', '', s)` (or without `\.`): every allowed
   character is kept, in order and as often as it occurs; every other one is dropped.
   */
  function Filter(s: string, dotAllowed: bool): (r: string)
    ensures AllNameChars(r, dotAllowed)
    ensures |r| <= |s|
    ensures forall c :: multiset(r)[c] == if IsNameChar(c, dotAllowed) then multiset(s)[c] else 0
  {
    if s == [] then []
    else
      assert s == [s[0]] + s[1..];
      if IsNameChar(s[0], dotAllowed) then [s[0]] + Filter(s[1..], dotAllowed)
      else Filter(s[1..], dotAllowed)
  }

  lemma {:induction false} FilterAppend(a: string, b: string, dotAllowed: bool)
    ensures Filter(a + b, dotAllowed) == Filter(a, dotAllowed) + Filter(b, dotAllowed)
  {
    if a == [] {
      assert a + b == b;
    } else {
      assert (a + b)[0] == a[0];
      assert (a + b)[1..] == a[1..] + b;
      FilterAppend(a[1..], b, dotAllowed);
    }
  }

  /** A string of allowed characters passes the filter unchanged, so filtering twice is filtering once. */
  lemma {:induction false} FilterAllowed(s: string, dotAllowed: bool)
    requires AllNameChars(s, dotAllowed)
    ensures Filter(s, dotAllowed) == s
  {
    if s != [] {
      FilterAllowed(s[1..], dotAllowed);
    }
  }

  /** The name a sanitised title yields: `preg_replace(..., basename(sanitized))`. */
  function Derive(sanitized: string, dotAllowed: bool): (r: string)
    ensures AllNameChars(r, dotAllowed)
    ensures '/' !in r
    ensures |r| <= |sanitized|
  {
    var b := Basename(sanitized);
    var r := Filter(b, dotAllowed);
    NameCharsHaveNoSlash(r, dotAllowed);
    r
  }

  /** `base . "-" . n`, the name tried when the plain name is taken. */
  function Suffixed(base: string, n: nat): string {
    base + "-" + NatToString(n)
  }

  /** The plain base name, or the base name with a numeric counter. */
  datatype Candidate = Plain | Numbered(n: nat)

  function NameOf(base: string, c: Candidate): string {
    match c
    case Plain => base
    case Numbered(n) => Suffixed(base, n)
  }

  lemma SuffixedAlphabet(base: string, n: nat, dotAllowed: bool)
    requires AllNameChars(base, dotAllowed)
    ensures AllNameChars(Suffixed(base, n), dotAllowed)
    ensures |Suffixed(base, n)| >= |base| + 2
  {
    var d := NatToString(n);
    assert forall i :: 0 <= i < |d| ==> IsDigit(d[i]);
  }

  lemma SuffixedInjective(folder: string, base: string, m: nat, n: nat)
    ensures NotePath(folder, Suffixed(base, m)) == NotePath(folder, Suffixed(base, n)) ==> m == n
  {
    if NotePath(folder, Suffixed(base, m)) == NotePath(folder, Suffixed(base, n)) {
      NotePathInjective(folder, Suffixed(base, m), Suffixed(base, n));
      var k := |base| + 1;
      assert NatToString(m) == Suffixed(base, m)[k..];
      assert NatToString(n) == Suffixed(base, n)[k..];
      NatToStringInjective(m, n);
    }
  }

  /**
   The first counter from `n` on whose path is free. `untried` holds every
   existing path of a counter not yet tried, so it shrinks with each step.
   */
  function FreeFrom(fs: FileSystem, folder: string, base: string, n: nat, untried: set<string>): (r: nat)
    requires forall m: nat :: n <= m && NotePath(folder, Suffixed(base, m)) in fs ==>
               NotePath(folder, Suffixed(base, m)) in untried
    ensures n <= r
    ensures NotePath(folder, Suffixed(base, r)) !in fs
    ensures forall m :: n <= m < r ==> NotePath(folder, Suffixed(base, m)) in fs
    decreases untried
  {
    var p := NotePath(folder, Suffixed(base, n));
    if p !in fs then n
    else
      assert forall m: nat :: n + 1 <= m && NotePath(folder, Suffixed(base, m)) in fs ==>
               NotePath(folder, Suffixed(base, m)) in untried - {p} by {
        forall m: nat | n + 1 <= m && NotePath(folder, Suffixed(base, m)) in fs
          ensures NotePath(folder, Suffixed(base, m)) in untried - {p}
        {
          SuffixedInjective(folder, base, m, n);
        }
      }
      FreeFrom(fs, folder, base, n + 1, untried - {p})
  }

  /**
   `c` is the candidate the collision loops settle on when counting starts at
   `first`: its path is free, and every candidate tried before it -- the plain
   name, then counters `first`, `first + 1`, ... -- is taken.
   */
  predicate FirstFree(fs: FileSystem, folder: string, base: string, first: nat, c: Candidate) {
    && NotePath(folder, NameOf(base, c)) !in fs
    && (c.Numbered? ==>
          && NotePath(folder, base) in fs
          && first <= c.n
          && forall m :: first <= m < c.n ==> NotePath(folder, Suffixed(base, m)) in fs)
  }

  /** The collision search: the plain name if free, else the first free counter from `first`. */
  function Resolve(fs: FileSystem, folder: string, base: string, first: nat): (c: Candidate)
    ensures FirstFree(fs, folder, base, first, c)
  {
    if NotePath(folder, base) !in fs then Plain
    else Numbered(FreeFrom(fs, folder, base, first, fs.Keys))
  }

  /** Only one candidate is the first free one, so the search is determined by the existing files. */
  lemma FirstFreeUnique(fs: FileSystem, folder: string, base: string, first: nat, c: Candidate, d: Candidate)
    requires FirstFree(fs, folder, base, first, c)
    requires FirstFree(fs, folder, base, first, d)
    ensures c == d
  {
  }

  /** The path the search picks is never one of the existing files. */
  lemma ResolvedPathIsNew(fs: FileSystem, folder: string, base: string, first: nat)
    ensures NotePath(folder, NameOf(base, Resolve(fs, folder, base, first))) !in fs
  {
  }
}

=== FILE: listing.dfy ===
/**
 The "Existing Notes" list: the entries `scandir` returns for the public
 folder, without `.` and `..`, at most five of them, and -- in every variant
 but olnote-v4.php -- newest first by modification time.
 */
module Listing {
  import Store

  /** How many entries a listing shows at most. */
  const Limit := 5

  predicate IsDot(name: string) {
    name == "." || name == ".."
  }

  /** `filemtime("<folder>/<name>")`; a failed lookup (PHP `false`) counts as 0 in the comparator. */
  function MTime(mtimes: map<string, int>, folder: string, name: string): int {
    var p := folder + "/" + name;
    if p in mtimes then mtimes[p] else 0
  }

  /** The sort key of the listings: the modification time of each entry of `folder`. */
  function MTimeKey(mtimes: map<string, int>, folder: string): string -> int {
    name => MTime(mtimes, folder, name)
  }

  /** No entry is newer than an entry before it. */
  predicate NewestFirst(key: string -> int, s: seq<string>) {
    forall i, j :: 0 <= i < j < |s| ==> key(s[i]) >= key(s[j])
  }

  /**
   `array_diff($entries, ['.', '..'])`: `WithoutDotsCounts` keeps every other
   entry as often as it occurs, and `WithoutDotsAppend` keeps them in order.
   */
  function WithoutDots(entries: seq<string>): (r: seq<string>)
    ensures forall i :: 0 <= i < |r| ==> !IsDot(r[i])
    ensures forall x :: x in r <==> x in entries && !IsDot(x)
  {
    if entries == [] then []
    else
      assert entries == [entries[0]] + entries[1..];
      if IsDot(entries[0]) then WithoutDots(entries[1..])
      else [entries[0]] + WithoutDots(entries[1..])
  }

  /** Places `x` before the first entry of `s` that is not newer than it. */
  function Insert(key: string -> int, x: string, s: seq<string>): (r: seq<string>)
    requires NewestFirst(key, s)
    ensures NewestFirst(key, r)
    ensures multiset(r) == multiset(s) + multiset{x}
    ensures forall y :: y in r ==> y == x || y in s
  {
    if s == [] || key(x) >= key(s[0]) then
      HeadNotOlderThanAll(key, x, s);
      ConsNewestFirst(key, x, s);
      [x] + s
    else
      var t := Insert(key, x, s[1..]);
      HeadTail(s);
      HeadNotOlder(key, s);
      ConsNewestFirst(key, s[0], t);
      [s[0]] + t
  }

  /**
   `usort` with the comparator `filemtime(b) - filemtime(a)`: a permutation of
   `s` with the newest entry first. Entries with equal times keep their order,
   as PHP's sort is stable.
   */
  function SortNewestFirst(key: string -> int, s: seq<string>): (r: seq<string>)
    ensures NewestFirst(key, r)
    ensures multiset(r) == multiset(s)
  {
    if s == [] then []
    else
      HeadTail(s);
      Insert(key, s[0], SortNewestFirst(key, s[1..]))
  }

  /** The entries of `s` whose time is `k`, in their order in `s`. */
  function WithKey(key: string -> int, k: int, s: seq<string>): seq<string> {
    if s == [] then []
    else (if key(s[0]) == k then [s[0]] else []) + WithKey(key, k, s[1..])
  }

  /** Inserting `x` puts it ahead of every entry as old as it, and moves no other entry past one of equal time. */
  lemma {:induction false} InsertWithKey(key: string -> int, k: int, x: string, s: seq<string>)
    requires NewestFirst(key, s)
    ensures WithKey(key, k, Insert(key, x, s)) == (if key(x) == k then [x] else []) + WithKey(key, k, s)
  {
    if s == [] || key(x) >= key(s[0]) {
      InsertFront(key, x, s);
      WithKeyCons(key, k, x, s);
    } else {
      InsertBehind(key, x, s);
      InsertWithKey(key, k, x, s[1..]);
      HeadTail(s);
      WithKeyBehind(key, k, x, s[0], s[1..], Insert(key, x, s[1..]));
    }
  }

  /** An entry not older than the head goes in front. */
  lemma InsertFront(key: string -> int, x: string, s: seq<string>)
    requires NewestFirst(key, s) && (s == [] || key(x) >= key(s[0]))
    ensures Insert(key, x, s) == [x] + s
  {
  }

  /** An entry older than the head is inserted into the tail. */
  lemma InsertBehind(key: string -> int, x: string, s: seq<string>)
    requires NewestFirst(key, s) && s != [] && key(x) < key(s[0])
    ensures NewestFirst(key, s[1..])
    ensures Insert(key, x, s) == [s[0]] + Insert(key, x, s[1..])
  {
    NewestFirstTail(key, s);
  }

  /** Putting an entry newer than `x` in front of both sides keeps the tied entries equal. */
  lemma WithKeyBehind(key: string -> int, k: int, x: string, h: string, t: seq<string>, u: seq<string>)
    requires key(x) < key(h)
    requires WithKey(key, k, u) == (if key(x) == k then [x] else []) + WithKey(key, k, t)
    ensures WithKey(key, k, [h] + u) == (if key(x) == k then [x] else []) + WithKey(key, k, [h] + t)
  {
    WithKeyCons(key, k, h, u);
    WithKeyCons(key, k, h, t);
    if key(x) != k {
      assert [] + WithKey(key, k, [h] + t) == WithKey(key, k, [h] + t);
    }
  }

  lemma WithKeyCons(key: string -> int, k: int, h: string, t: seq<string>)
    ensures WithKey(key, k, [h] + t) == (if key(h) == k then [h] else []) + WithKey(key, k, t)
  {
    assert ([h] + t)[1..] == t;
  }

  lemma NewestFirstTail(key: string -> int, s: seq<string>)
    requires NewestFirst(key, s) && s != []
    ensures NewestFirst(key, s[1..])
  {
    forall i, j | 0 <= i < j < |s[1..]| ensures key(s[1..][i]) >= key(s[1..][j]) {
      assert s[1..][i] == s[i + 1] && s[1..][j] == s[j + 1];
    }
  }

  /**
   The sort is stable: entries with equal times keep their `scandir` order, so a
   tie at the fifth place goes to the entry `scandir` lists first.
   */
  lemma {:induction false} SortKeepsTiedOrder(key: string -> int, k: int, s: seq<string>)
    ensures WithKey(key, k, SortNewestFirst(key, s)) == WithKey(key, k, s)
  {
    if s != [] {
      SortKeepsTiedOrder(key, k, s[1..]);
      InsertWithKey(key, k, s[0], SortNewestFirst(key, s[1..]));
    }
  }

  /** The first `k` entries of `s`, or all of them when there are fewer: the `break` after the fifth. */
  function Take(s: seq<string>, k: nat): (r: seq<string>)
    ensures |r| == if |s| < k then |s| else k
    ensures r == s[..|r|]
    ensures multiset(r) <= multiset(s)
  {
    if |s| <= k then s
    else
      assert s == s[..k] + s[k..];
      s[..k]
  }

  /**
   The listing of olnote-v1.php and olnote-v2.php: drop `.` and `..`, sort
   newest first, show the first five. It is empty -- "No notes found." -- exactly
   when the folder holds no entry, and no entry left out is newer than one shown.
   */
  function NewestFive(key: string -> int, entries: seq<string>): (r: seq<string>)
    ensures |r| <= Limit
    ensures forall x :: x in r ==> x in entries && !IsDot(x)
    ensures |r| == 0 <==> forall x :: x in entries ==> IsDot(x)
    ensures |r| == Limit || forall x :: x in entries && !IsDot(x) ==> x in r
    ensures NewestFirst(key, r)
    ensures forall x, y :: x in entries && !IsDot(x) && x !in r && y in r ==> key(y) >= key(x)
    ensures multiset(r) <= multiset(entries)
    ensures |r| == if |WithoutDots(entries)| < Limit then |WithoutDots(entries)| else Limit
  {
    var files := WithoutDots(entries);
    WithoutDotsSubMultiset(entries);
    var sorted := SortNewestFirst(key, files);
    SameMembers(files, sorted);
    WithoutDotsSameSize(SortNewestFirst(key, entries), entries);
    TakeKeepsNewest(key, sorted, Limit);
    var r := Take(sorted, Limit);
    assert |files| > 0 ==> files[0] in files;
    assert |r| > 0 ==> r[0] in sorted;
    r
  }

  /** A non-empty sequence is its head followed by its tail. */
  lemma HeadTail(s: seq<string>)
    requires s != []
    ensures s == [s[0]] + s[1..]
  {
  }

  /** Two sequences holding the same multiset hold the same members. */
  lemma SameMembers(a: seq<string>, b: seq<string>)
    requires multiset(a) == multiset(b)
    ensures forall x :: x in a <==> x in b
  {
    forall x ensures x in a <==> x in b {
      assert x in a <==> x in multiset(a);
      assert x in b <==> x in multiset(b);
    }
  }

  /** Cutting a newest-first sequence keeps it newest first and leaves out nothing newer than what it keeps. */
  lemma TakeKeepsNewest(key: string -> int, s: seq<string>, k: nat)
    requires NewestFirst(key, s)
    ensures NewestFirst(key, Take(s, k))
    ensures forall x, y :: x in s && x !in Take(s, k) && y in Take(s, k) ==> key(y) >= key(x)
  {
    var r := Take(s, k);
    forall x, y | x in s && x !in r && y in r ensures key(y) >= key(x) {
      var i :| 0 <= i < |s| && s[i] == x;
      var j :| 0 <= j < |r| && r[j] == y;
      assert s[j] == y;
      assert forall m :: 0 <= m < |r| ==> s[m] == r[m] && r[m] in r;
      assert i >= |r|;
    }
  }

  /**
   The listing of olnote-v3.php: sort every entry, `.` and `..` included, newest
   first, then show the first five that are not `.` or `..`.
   */
  function SortThenSkipDots(key: string -> int, entries: seq<string>): (r: seq<string>)
    ensures |r| <= Limit
    ensures forall x :: x in r ==> !IsDot(x)
  {
    Take(WithoutDots(SortNewestFirst(key, entries)), Limit)
  }

  /** The listing of olnote-v4.php: the first five entries in `scandir` order, with no sorting. */
  function FirstFive(entries: seq<string>): (r: seq<string>)
    ensures |r| <= Limit
    ensures forall x :: x in r ==> x in entries && !IsDot(x)
    ensures |r| == 0 <==> forall x :: x in entries ==> IsDot(x)
    ensures |r| == Limit || forall x :: x in entries && !IsDot(x) ==> x in r
    ensures |r| <= |WithoutDots(entries)| && r == WithoutDots(entries)[..|r|]
    ensures multiset(r) <= multiset(entries)
    ensures |r| == if |WithoutDots(entries)| < Limit then |WithoutDots(entries)| else Limit
  {
    var files := WithoutDots(entries);
    WithoutDotsSubMultiset(entries);
    assert |files| > 0 ==> files[0] in files;
    Take(files, Limit)
  }

  /** Dropping the dots keeps every other entry exactly as often as `scandir` returned it. */
  lemma {:induction false} WithoutDotsCounts(entries: seq<string>)
    ensures forall x :: multiset(WithoutDots(entries))[x] == if IsDot(x) then 0 else multiset(entries)[x]
  {
    if entries != [] {
      var t := entries[1..];
      WithoutDotsCounts(t);
      HeadTail(entries);
      assert multiset(entries) == multiset{entries[0]} + multiset(t);
      if !IsDot(entries[0]) {
        assert multiset(WithoutDots(entries)) == multiset{entries[0]} + multiset(WithoutDots(t));
      }
    }
  }

  /** Dropping the dots keeps no entry more often than `scandir` returned it. */
  lemma WithoutDotsSubMultiset(entries: seq<string>)
    ensures multiset(WithoutDots(entries)) <= multiset(entries)
  {
    WithoutDotsCounts(entries);
    var r := WithoutDots(entries);
    assert forall x :: multiset(r)[x] <= multiset(entries)[x];
  }

  /** Two listings with the same entries keep the same number of entries once the dots are dropped. */
  lemma WithoutDotsSameSize(a: seq<string>, b: seq<string>)
    requires multiset(a) == multiset(b)
    ensures |WithoutDots(a)| == |WithoutDots(b)|
  {
    WithoutDotsCounts(a);
    WithoutDotsCounts(b);
    assert multiset(WithoutDots(a)) == multiset(WithoutDots(b)) by {
      forall x ensures multiset(WithoutDots(a))[x] == multiset(WithoutDots(b))[x] {
      }
    }
    assert |multiset(WithoutDots(a))| == |WithoutDots(a)|;
    assert |multiset(WithoutDots(b))| == |WithoutDots(b)|;
  }

  /** Dropping the dots works entry by entry, so the kept entries stay in `scandir` order. */
  lemma {:induction false} WithoutDotsAppend(a: seq<string>, b: seq<string>)
    ensures WithoutDots(a + b) == WithoutDots(a) + WithoutDots(b)
  {
    if a != [] {
      assert (a + b)[1..] == a[1..] + b;
      assert (a + b)[0] == a[0];
      WithoutDotsAppend(a[1..], b);
    } else {
      assert a + b == b;
    }
  }

  /** A subsequence of names in ascending order is in ascending order. */
  lemma {:induction false} WithoutDotsAscending(entries: seq<string>)
    requires Store.AscendingNames(entries)
    ensures Store.AscendingNames(WithoutDots(entries))
  {
    if entries != [] {
      var t := entries[1..];
      assert Store.AscendingNames(t) by {
        forall i, j | 0 <= i < j < |t| ensures Store.NameBefore(t[i], t[j]) {
          assert t[i] == entries[i + 1] && t[j] == entries[j + 1];
        }
      }
      WithoutDotsAscending(t);
      if !IsDot(entries[0]) {
        var w := WithoutDots(t);
        HeadTail(entries);
        assert WithoutDots(entries) == [entries[0]] + w;
        forall j | 0 <= j < |w| ensures Store.NameBefore(entries[0], w[j]) {
          assert w[j] in t;
          var k :| 0 <= k < |t| && t[k] == w[j];
          assert entries[k + 1] == w[j];
        }
      }
    }
  }

  /**
   olnote-v4.php's listing of a `scandir` result: the notes shown are the
   alphabetically first ones, not the newest.
   */
  lemma FirstFiveSmallestNames(entries: seq<string>)
    requires Store.AscendingNames(entries)
    ensures forall x, y :: x in FirstFive(entries) && y in entries && !IsDot(y) && y !in FirstFive(entries) ==>
              Store.NameBefore(x, y)
  {
    var w := WithoutDots(entries);
    var r := FirstFive(entries);
    WithoutDotsAscending(entries);
    forall x, y | x in r && y in entries && !IsDot(y) && y !in r ensures Store.NameBefore(x, y) {
      var i :| 0 <= i < |r| && r[i] == x;
      assert y in w;
      var j :| 0 <= j < |w| && w[j] == y;
      assert w[i] == x;
      assert forall m :: 0 <= m < |r| ==> w[m] == r[m] && r[m] in r;
      assert j >= |r|;
    }
  }

  lemma {:induction false} WithoutDotsNewestFirst(key: string -> int, s: seq<string>)
    requires NewestFirst(key, s)
    ensures NewestFirst(key, WithoutDots(s))
    decreases |s|
  {
    if s != [] {
      assert NewestFirst(key, s[1..]);
      WithoutDotsNewestFirst(key, s[1..]);
      var f := WithoutDots(s[1..]);
      HeadNotOlder(key, s);
      if !IsDot(s[0]) {
        ConsNewestFirst(key, s[0], f);
      }
    }
  }

  /** The head of a newest-first sequence is not older than any entry after it. */
  lemma HeadNotOlder(key: string -> int, s: seq<string>)
    requires NewestFirst(key, s) && s != []
    ensures forall y :: y in s[1..] ==> key(s[0]) >= key(y)
  {
    forall y | y in s[1..] ensures key(s[0]) >= key(y) {
      var k :| 0 <= k < |s[1..]| && s[1..][k] == y;
      assert s[k + 1] == y;
    }
  }

  /** An entry not older than the head of a newest-first sequence is not older than any of it. */
  lemma HeadNotOlderThanAll(key: string -> int, x: string, s: seq<string>)
    requires NewestFirst(key, s)
    requires s == [] || key(x) >= key(s[0])
    ensures forall y :: y in s ==> key(x) >= key(y)
  {
    if s != [] {
      HeadNotOlder(key, s);
      assert forall y :: y in s ==> y == s[0] || y in s[1..];
    }
  }

  /** An entry not older than any of a newest-first sequence may go in front of it. */
  lemma ConsNewestFirst(key: string -> int, x: string, f: seq<string>)
    requires NewestFirst(key, f)
    requires forall y :: y in f ==> key(x) >= key(y)
    ensures NewestFirst(key, [x] + f)
  {
    var t := [x] + f;
    forall i, j | 0 <= i < j < |t| ensures key(t[i]) >= key(t[j]) {
      assert t[j] == f[j - 1];
      if i > 0 {
        assert t[i] == f[i - 1];
      } else {
        assert f[j - 1] in f;
      }
    }
  }

  lemma FirstNotDotNotNewer(key: string -> int, s: seq<string>)
    requires NewestFirst(key, s)
    requires WithoutDots(s) != []
    ensures s != [] && key(s[0]) >= key(WithoutDots(s)[0])
  {
    var f := WithoutDots(s);
    assert f[0] in s;
    var k :| 0 <= k < |s| && s[k] == f[0];
  }

  lemma WithoutDotsCons(x: string, s: seq<string>)
    ensures WithoutDots([x] + s) == (if IsDot(x) then [] else [x]) + WithoutDots(s)
  {
    assert ([x] + s)[0] == x;
    assert ([x] + s)[1..] == s;
  }

  /** Inserting an entry and then dropping `.` and `..` is dropping them first and inserting after. */
  lemma {:induction false} InsertWithoutDots(key: string -> int, x: string, s: seq<string>)
    requires NewestFirst(key, s)
    ensures NewestFirst(key, WithoutDots(s))
    ensures WithoutDots(Insert(key, x, s)) ==
              if IsDot(x) then WithoutDots(s) else Insert(key, x, WithoutDots(s))
    decreases |s|
  {
    WithoutDotsNewestFirst(key, s);
    if s == [] || key(x) >= key(s[0]) {
      assert Insert(key, x, s) == [x] + s;
      InsertFrontWithoutDots(key, x, s);
    } else {
      assert NewestFirst(key, s[1..]);
      InsertWithoutDots(key, x, s[1..]);
      InsertBehindWithoutDots(key, x, s);
    }
  }

  /** The case where `x` goes in front. */
  lemma InsertFrontWithoutDots(key: string -> int, x: string, s: seq<string>)
    requires NewestFirst(key, s) && NewestFirst(key, WithoutDots(s))
    requires s == [] || key(x) >= key(s[0])
    ensures WithoutDots([x] + s) == if IsDot(x) then WithoutDots(s) else Insert(key, x, WithoutDots(s))
  {
    WithoutDotsCons(x, s);
    if !IsDot(x) && WithoutDots(s) != [] {
      FirstNotDotNotNewer(key, s);
    }
  }

  /** The case where `x` goes behind the head `s[0]`, given the claim for the tail. */
  lemma InsertBehindWithoutDots(key: string -> int, x: string, s: seq<string>)
    requires s != [] && key(x) < key(s[0])
    requires NewestFirst(key, s) && NewestFirst(key, s[1..])
    requires NewestFirst(key, WithoutDots(s)) && NewestFirst(key, WithoutDots(s[1..]))
    requires WithoutDots(Insert(key, x, s[1..])) ==
               if IsDot(x) then WithoutDots(s[1..]) else Insert(key, x, WithoutDots(s[1..]))
    ensures WithoutDots(Insert(key, x, s)) ==
              if IsDot(x) then WithoutDots(s) else Insert(key, x, WithoutDots(s))
  {
    if IsDot(x) {
      BehindDotEntry(key, x, s);
    } else if IsDot(s[0]) {
      BehindDotHead(key, x, s);
    } else {
      BehindKeptHead(key, x, s);
    }
  }

  lemma BehindDotEntry(key: string -> int, x: string, s: seq<string>)
    requires s != [] && key(x) < key(s[0]) && NewestFirst(key, s) && NewestFirst(key, s[1..])
    requires IsDot(x)
    requires WithoutDots(Insert(key, x, s[1..])) == WithoutDots(s[1..])
    ensures WithoutDots(Insert(key, x, s)) == WithoutDots(s)
  {
    var t := Insert(key, x, s[1..]);
    assert Insert(key, x, s) == [s[0]] + t;
    HeadTail(s);
    BehindSameTail(s[0], t, s[1..]);
  }

  lemma BehindDotHead(key: string -> int, x: string, s: seq<string>)
    requires s != [] && key(x) < key(s[0]) && NewestFirst(key, s) && NewestFirst(key, s[1..])
    requires NewestFirst(key, WithoutDots(s)) && NewestFirst(key, WithoutDots(s[1..]))
    requires IsDot(s[0])
    requires WithoutDots(Insert(key, x, s[1..])) == Insert(key, x, WithoutDots(s[1..]))
    ensures WithoutDots(Insert(key, x, s)) == Insert(key, x, WithoutDots(s))
  {
    var t := Insert(key, x, s[1..]);
    assert Insert(key, x, s) == [s[0]] + t;
    HeadTail(s);
    WithoutDotsCons(s[0], t);
    WithoutDotsCons(s[0], s[1..]);
  }

  lemma BehindKeptHead(key: string -> int, x: string, s: seq<string>)
    requires s != [] && key(x) < key(s[0]) && NewestFirst(key, s) && NewestFirst(key, s[1..])
    requires NewestFirst(key, WithoutDots(s)) && NewestFirst(key, WithoutDots(s[1..]))
    requires !IsDot(s[0])
    requires WithoutDots(Insert(key, x, s[1..])) == Insert(key, x, WithoutDots(s[1..]))
    ensures WithoutDots(Insert(key, x, s)) == Insert(key, x, WithoutDots(s))
  {
    var t := Insert(key, x, s[1..]);
    assert Insert(key, x, s) == [s[0]] + t;
    HeadTail(s);
    var w1 := WithoutDots(s[1..]);
    WithoutDotsCons(s[0], t);
    assert WithoutDots(Insert(key, x, s)) == [s[0]] + Insert(key, x, w1);
    WithoutDotsCons(s[0], s[1..]);
    assert WithoutDots(s) == [s[0]] + w1;
    InsertBehindKept(key, x, s[0], w1);
  }

  /** Tails equal without dots stay equal under the same head. */
  lemma BehindSameTail(h: string, t: seq<string>, u: seq<string>)
    requires WithoutDots(t) == WithoutDots(u)
    ensures WithoutDots([h] + t) == WithoutDots([h] + u)
  {
    WithoutDotsCons(h, t);
    WithoutDotsCons(h, u);
  }

  /** Behind a kept head `h` newer than `x`, inserting into `[h] + w` inserts into `w`. */
  lemma InsertBehindKept(key: string -> int, x: string, h: string, w: seq<string>)
    requires NewestFirst(key, [h] + w) && NewestFirst(key, w)
    requires key(x) < key(h)
    ensures Insert(key, x, [h] + w) == [h] + Insert(key, x, w)
  {
    assert ([h] + w)[0] == h;
    assert ([h] + w)[1..] == w;
  }

  /** Dropping `.` and `..` commutes with the stable newest-first sort. */
  lemma {:induction false} SortWithoutDots(key: string -> int, s: seq<string>)
    ensures WithoutDots(SortNewestFirst(key, s)) == SortNewestFirst(key, WithoutDots(s))
    decreases |s|
  {
    if s != [] {
      var sorted := SortNewestFirst(key, s[1..]);
      SortWithoutDots(key, s[1..]);
      InsertWithoutDots(key, s[0], sorted);
      if !IsDot(s[0]) {
        assert WithoutDots(s)[1..] == WithoutDots(s[1..]);
      }
    }
  }

  /** Sorting before skipping `.` and `..` (olnote-v3.php) lists the same notes as skipping first (olnote-v1.php). */
  lemma SortThenSkipIsNewestFive(key: string -> int, entries: seq<string>)
    ensures SortThenSkipDots(key, entries) == NewestFive(key, entries)
  {
    SortWithoutDots(key, entries);
  }

  function AgeKey(name: string): int {
    if name == "b" then 2 else 1
  }

  lemma DotsDropped()
    ensures WithoutDots([".", "..", "a", "b"]) == ["a", "b"]
  {
    WithoutDotsCons("b", []);
    WithoutDotsCons("a", ["b"]);
    WithoutDotsCons("..", ["a", "b"]);
    WithoutDotsCons(".", ["..", "a", "b"]);
  }

  /** Sorting `a` (time 1) and `b` (time 2) newest first puts `b` first. */
  lemma NewerFirst()
    ensures SortNewestFirst(AgeKey, ["a", "b"]) == ["b", "a"]
  {
    assert AgeKey("b") == 2 && AgeKey("a") == 1;
    assert ["a", "b"][1..] == ["b"];
    assert ["b"][1..] == [];
    assert SortNewestFirst(AgeKey, ["b"]) == ["b"];
    assert Insert(AgeKey, "a", ["b"]) == ["b"] + Insert(AgeKey, "a", []);
  }

  /** olnote-v4.php's listing of `.`, `..`, `a`, `b` is `a`, `b`. */
  lemma FirstFiveOfSample()
    ensures FirstFive([".", "..", "a", "b"]) == ["a", "b"]
  {
    DotsDropped();
    var r := FirstFive([".", "..", "a", "b"]);
    assert "a" in r && "b" in r;
    assert |r| == 2;
  }

  /** olnote-v1.php's listing of the same entries, `b` being newer, is `b`, `a`. */
  lemma NewestFiveOfSample()
    ensures NewestFive(AgeKey, [".", "..", "a", "b"]) == ["b", "a"]
  {
    DotsDropped();
    NewerFirst();
  }

  /** Without a sort, olnote-v4.php can show an older note ("a") before a newer one ("b"). */
  lemma FirstFiveIgnoresAge()
    ensures Store.AscendingNames([".", "..", "a", "b"])
    ensures FirstFive([".", "..", "a", "b"]) == ["a", "b"]
    ensures !NewestFirst(AgeKey, FirstFive([".", "..", "a", "b"]))
    ensures NewestFive(AgeKey, [".", "..", "a", "b"]) == ["b", "a"]
  {
    SampleAscending();
    FirstFiveOfSample();
    NewestFiveOfSample();
    assert AgeKey("a") < AgeKey("b");
  }

  /** `.`, `..`, `a`, `b` is a possible `scandir` order. */
  lemma SampleAscending()
    ensures Store.AscendingNames([".", "..", "a", "b"])
  {
    var e := [".", "..", "a", "b"];
    assert Store.NameBefore(".", "..") by {
      assert "."[1..] == [] && ".."[1..] == ".";
    }
    assert Store.NameBefore("..", "a") && Store.NameBefore("..", "b");
    assert Store.NameBefore(".", "a") && Store.NameBefore(".", "b");
    assert Store.NameBefore("a", "b");
  }
}

=== FILE: note_v1.dfy ===
/**
 olnote-v1.php: unprefixed fields, `trim` then `stripslashes` then
 `htmlspecialchars`, a do-while collision loop that tries `name`, `name-2`,
 `name-3`, ..., and the empty and length checks made on the name the loop
 settles on. A fragment-only (AJAX) request ends before a new CAPTCHA is drawn.
 */
module NoteV1 {
  import opened Wrappers
  import opened Numbers
  import opened Store
  import opened FileName
  import opened Sanitizer
  import opened Challenge
  import opened Pipeline

  const TitleField := "filename"
  const ContentField := "content"
  const CaptchaField := "captcha"

  /** The first counter the do-while loop appends: `$counter` is 2 on its second pass. */
  const FirstCounter := 2

  /** `preg_replace(..., basename(sanitizeInput($title)))`: the name before the collision loop. */
  function Base(title: string): (r: string)
    ensures AllNameChars(r, true)
  {
    Derive(SanitizeTrimFirst(title), true)
  }

  /** The name the do-while loop leaves in `$filename`. */
  function Chosen(fs: FileSystem, title: string): (r: string)
    ensures AllNameChars(r, true)
    ensures NotePath(PublicFolder, r) !in fs
  {
    var base := Base(title);
    var c := Resolve(fs, PublicFolder, base, FirstCounter);
    assert AllNameChars(NameOf(base, c), true) by {
      if c.Numbered? {
        SuffixedAlphabet(base, c.n, true);
      }
    }
    NameOf(base, c)
  }

  /** The POST block of olnote-v1.php, run after the session token exists. */
  function Submit(session: Session, post: Post, fs: FileSystem, writeOk: bool): (e: Effect)
    ensures e.outcome.InvalidRequest? <==> !CsrfOk(post, session.csrfToken)
    ensures e.outcome.IncorrectCaptcha? <==>
              CsrfOk(post, session.csrfToken) && !CaptchaOk(post, CaptchaField, session.captchaAnswer)
    ensures e.outcome.EmptyFilename? <==>
              Admitted(session, post) && PhpEmpty(Chosen(fs, TextField(post, TitleField)))
    ensures e.outcome.FilenameTooLong? <==>
              Admitted(session, post) && !PhpEmpty(Chosen(fs, TextField(post, TitleField)))
              && |Chosen(fs, TextField(post, TitleField))| > MaxNameLength
    ensures e.outcome.StorageError? <==>
              Admitted(session, post) && !PhpEmpty(Chosen(fs, TextField(post, TitleField)))
              && |Chosen(fs, TextField(post, TitleField))| <= MaxNameLength && !writeOk
    ensures !e.outcome.NoSubmission?
    ensures !e.outcome.Saved? ==> e.files == fs
    ensures e.outcome.Saved? ==>
              && writeOk
              && e.outcome.link !in fs
              && DirectlyInside(e.outcome.link, PublicFolder)
              && NoteFileIn(e.outcome.link, PublicFolder, true, MaxNameLength)
              && e.files == fs[e.outcome.link := SanitizeTrimFirst(TextField(post, ContentField))]
  {
    if !CsrfOk(post, session.csrfToken) then Effect(InvalidRequest, fs)
    else if !CaptchaOk(post, CaptchaField, session.captchaAnswer) then Effect(IncorrectCaptcha, fs)
    else
      var name := Chosen(fs, TextField(post, TitleField));
      NameCharsHaveNoSlash(name, true);
      NotePathInside(PublicFolder, name);
      NoteFileInByName(PublicFolder, name, true, MaxNameLength);
      CheckThenSave(fs, name, NotePath(PublicFolder, name), SanitizeTrimFirst(TextField(post, ContentField)), writeOk)
  }

  /**
   One request to olnote-v1.php: create the token if the session lacks one,
   run the POST block if there is one, then draw the next CAPTCHA -- unless
   the request failed the token check or asked for the fragment only, both of
   which end the script first.
   */
  function Serve(session: Session, request: Option<Post>, fs: FileSystem, entropy: Entropy,
                 writeOk: bool, fragmentOnly: bool): (r: Response)
    requires entropy.Valid()
    ensures Held(r.session.csrfToken)
    ensures Held(session.csrfToken) ==> r.session.csrfToken == session.csrfToken
    ensures r.session.fieldPrefix == session.fieldPrefix
    ensures request.None? <==> r.outcome == NoSubmission
    ensures request.None? ==> r.files == fs
    ensures request.Some? ==> Effect(r.outcome, r.files) == Submit(EnsureToken(session, entropy.tokenBytes), request.value, fs, writeOk)
    ensures request.Some? ==> (r.outcome.InvalidRequest? <==> !CsrfOk(request.value, EnsureToken(session, entropy.tokenBytes).csrfToken))
    ensures !r.outcome.Saved? ==> r.files == fs
    ensures r.outcome.InvalidRequest? || (request.Some? && fragmentOnly) ==>
              r.session.captchaAnswer == session.captchaAnswer
    ensures !r.outcome.InvalidRequest? && !(request.Some? && fragmentOnly) ==>
              r.session.captchaAnswer == Some(entropy.num1 + entropy.num2)
              && 2 <= r.session.captchaAnswer.value <= 20
  {
    var s := EnsureToken(session, entropy.tokenBytes);
    match request
    case None => Response(NoSubmission, fs, IssueCaptcha(s, entropy.num1, entropy.num2))
    case Some(post) =>
      var e := Submit(s, post, fs, writeOk);
      if e.outcome.InvalidRequest? || fragmentOnly then Response(e.outcome, e.files, s)
      else Response(e.outcome, e.files, IssueCaptcha(s, entropy.num1, entropy.num2))
  }

  /** Both checks pass. */
  predicate Admitted(session: Session, post: Post) {
    CsrfOk(post, session.csrfToken) && CaptchaOk(post, CaptchaField, session.captchaAnswer)
  }

  /** The loop's order is `name`, `name-2`, `name-3`, ...: the note is saved under the first free one. */
  lemma SavedUnderFirstFree(session: Session, post: Post, fs: FileSystem, c: Candidate)
    requires Admitted(session, post)
    requires FirstFree(fs, PublicFolder, Base(TextField(post, TitleField)), FirstCounter, c)
    requires var name := NameOf(Base(TextField(post, TitleField)), c);
             !PhpEmpty(name) && |name| <= MaxNameLength
    ensures Submit(session, post, fs, true).outcome
              == Saved(NotePath(PublicFolder, NameOf(Base(TextField(post, TitleField)), c)))
  {
    var title := TextField(post, TitleField);
    var base := Base(title);
    FirstFreeUnique(fs, PublicFolder, base, FirstCounter, c, Resolve(fs, PublicFolder, base, FirstCounter));
    assert Chosen(fs, title) == NameOf(base, c);
  }

  /** The suffix `-1` is never produced. */
  lemma NeverSuffixOne(session: Session, post: Post, fs: FileSystem, writeOk: bool)
    ensures var e := Submit(session, post, fs, writeOk);
            e.outcome.Saved? ==>
              e.outcome.link != NotePath(PublicFolder, Suffixed(Base(TextField(post, TitleField)), 1))
  {
    var e := Submit(session, post, fs, writeOk);
    var base := Base(TextField(post, TitleField));
    if e.outcome.Saved? {
      var c := Resolve(fs, PublicFolder, base, FirstCounter);
      assert e.outcome.link == NotePath(PublicFolder, NameOf(base, c));
      NotePathInjective(PublicFolder, NameOf(base, c), Suffixed(base, 1));
      match c
      case Plain =>
        assert |Suffixed(base, 1)| > |base|;
      case Numbered(n) =>
        SuffixedInjective(PublicFolder, base, n, 1);
    }
  }

  /**
   The length check sees the suffixed name: a base of 49 or 50 characters that
   is already taken is refused as too long, though the base alone would pass.
   */
  lemma TakenLongNameTooLong(session: Session, post: Post, fs: FileSystem, writeOk: bool)
    requires Admitted(session, post)
    requires 49 <= |Base(TextField(post, TitleField))| <= MaxNameLength
    requires NotePath(PublicFolder, Base(TextField(post, TitleField))) in fs
    ensures Submit(session, post, fs, writeOk).outcome == FilenameTooLong
  {
    var title := TextField(post, TitleField);
    TakenNameLonger(fs, title);
    ChosenTooLong(session, post, fs, writeOk);
  }

  /** A taken base gets a suffix of at least two characters. */
  lemma TakenNameLonger(fs: FileSystem, title: string)
    requires NotePath(PublicFolder, Base(title)) in fs
    ensures |Chosen(fs, title)| >= |Base(title)| + 2
  {
    var base := Base(title);
    var c := Resolve(fs, PublicFolder, base, FirstCounter);
    SuffixedAlphabet(base, c.n, true);
  }

  lemma ChosenTooLong(session: Session, post: Post, fs: FileSystem, writeOk: bool)
    requires Admitted(session, post)
    requires |Chosen(fs, TextField(post, TitleField))| > MaxNameLength
    ensures Submit(session, post, fs, writeOk).outcome == FilenameTooLong
  {
  }

  /** A title that filters to nothing is refused as empty while `txt/.txt` does not exist. */
  lemma EmptyBaseRefused(session: Session, post: Post, fs: FileSystem, writeOk: bool)
    requires Admitted(session, post)
    requires Base(TextField(post, TitleField)) == ""
    requires NotePath(PublicFolder, "") !in fs
    ensures Submit(session, post, fs, writeOk).outcome == EmptyFilename
  {
  }

  /** ... but once `txt/.txt` exists, the same title is saved as `-2`, past the empty check. */
  lemma EmptyBaseSavedAsDashTwo(session: Session, post: Post, fs: FileSystem)
    requires Admitted(session, post)
    requires Base(TextField(post, TitleField)) == ""
    requires NotePath(PublicFolder, "") in fs
    requires NotePath(PublicFolder, "-2") !in fs
    ensures Submit(session, post, fs, true).outcome == Saved("txt/-2.txt")
  {
    DashTwo();
    assert FirstFree(fs, PublicFolder, "", FirstCounter, Numbered(2));
    SavedUnderFirstFree(session, post, fs, Numbered(2));
  }

  /** The name and path the second candidate gives an empty base. */
  lemma DashTwo()
    ensures NameOf("", Numbered(FirstCounter)) == "-2"
    ensures !PhpEmpty("-2") && |"-2"| <= MaxNameLength
    ensures NotePath(PublicFolder, "-2") == "txt/-2.txt"
  {
    assert NatToString(2) == "2";
  }

  /** PHP's `empty()` also refuses the name "0". */
  lemma ZeroRefused(session: Session, post: Post, fs: FileSystem, writeOk: bool)
    requires Admitted(session, post)
    requires Base(TextField(post, TitleField)) == "0"
    requires NotePath(PublicFolder, "0") !in fs
    ensures Submit(session, post, fs, writeOk).outcome == EmptyFilename
  {
  }

  /** The token check ends the request first: nothing written, no new CAPTCHA drawn. */
  lemma ForgedRequestChangesNothing(session: Session, post: Post, fs: FileSystem, entropy: Entropy,
                                    writeOk: bool, fragmentOnly: bool)
    requires entropy.Valid()
    requires !CsrfOk(post, EnsureToken(session, entropy.tokenBytes).csrfToken)
    ensures var r := Serve(session, Some(post), fs, entropy, writeOk, fragmentOnly);
            r.outcome == InvalidRequest && r.files == fs && r.session.captchaAnswer == session.captchaAnswer
  {
  }

  /** A wrong or missing CAPTCHA answer, or no stored answer, writes nothing. */
  lemma WrongCaptchaWritesNothing(session: Session, post: Post, fs: FileSystem, writeOk: bool)
    requires CsrfOk(post, session.csrfToken)
    requires CaptchaField !in post.answers || session.captchaAnswer.None?
             || post.answers[CaptchaField] != session.captchaAnswer.value
    ensures Submit(session, post, fs, writeOk) == Effect(IncorrectCaptcha, fs)
  {
  }
}

=== FILE: note_v2.dfy ===
/**
 olnote-v2.php: field names carry the session prefix, `trim` then
 `htmlspecialchars` with no `stripslashes`, the empty and length checks made on
 the base name, and a while loop that tries `name`, `name-1`, `name-2`, ...
 A request that fails the token check ends before a new CAPTCHA is drawn.
 */
module NoteV2 {
  import opened Wrappers
  import opened Store
  import opened FileName
  import opened Sanitizer
  import opened Challenge
  import opened Pipeline

  const TitleField := "filename"
  const ContentField := "content"
  const CaptchaField := "captcha"

  /** `$counter` starts at 1 and is appended from the loop's first pass. */
  const FirstCounter := 1

  /** `preg_replace(..., basename(sanitizeInput($title)))`: the name the checks see. */
  function Base(title: string): (r: string)
    ensures AllNameChars(r, true)
  {
    Derive(SanitizeNoStrip(title), true)
  }

  /** The title as submitted under the session's prefix. */
  function Title(session: Session, post: Post): string {
    TextField(post, PrefixOf(session) + TitleField)
  }

  /** The note text as stored. */
  function Content(session: Session, post: Post): string {
    SanitizeNoStrip(TextField(post, PrefixOf(session) + ContentField))
  }

  /** Both checks pass; the CAPTCHA field carries the prefix, the token field does not. */
  predicate Admitted(session: Session, post: Post) {
    CsrfOk(post, session.csrfToken) && CaptchaOk(post, PrefixOf(session) + CaptchaField, session.captchaAnswer)
  }

  /** The POST block of olnote-v2.php, run after the token and prefix exist. */
  function Submit(session: Session, post: Post, fs: FileSystem, writeOk: bool): (e: Effect)
    ensures e.outcome.InvalidRequest? <==> !CsrfOk(post, session.csrfToken)
    ensures e.outcome.IncorrectCaptcha? <==>
              CsrfOk(post, session.csrfToken)
              && !CaptchaOk(post, PrefixOf(session) + CaptchaField, session.captchaAnswer)
    ensures e.outcome.EmptyFilename? <==> Admitted(session, post) && PhpEmpty(Base(Title(session, post)))
    ensures e.outcome.FilenameTooLong? <==>
              Admitted(session, post) && !PhpEmpty(Base(Title(session, post)))
              && |Base(Title(session, post))| > MaxNameLength
    ensures e.outcome.StorageError? <==>
              Admitted(session, post) && !PhpEmpty(Base(Title(session, post)))
              && |Base(Title(session, post))| <= MaxNameLength && !writeOk
    ensures !e.outcome.NoSubmission?
    ensures !e.outcome.Saved? ==> e.files == fs
    ensures e.outcome.Saved? ==>
              && writeOk
              && e.outcome.link !in fs
              && DirectlyInside(e.outcome.link, PublicFolder)
              && e.files == fs[e.outcome.link := Content(session, post)]
  {
    if !CsrfOk(post, session.csrfToken) then Effect(InvalidRequest, fs)
    else if !CaptchaOk(post, PrefixOf(session) + CaptchaField, session.captchaAnswer) then Effect(IncorrectCaptcha, fs)
    else
      SaveUnderFreeName(fs, PublicFolder, Base(Title(session, post)), FirstCounter, Content(session, post), writeOk)
  }

  /**
   One request to olnote-v2.php: create the token and the prefix if the
   session lacks them, run the POST block if there is one, then draw the next
   CAPTCHA -- unless the token check failed, which ends the script first.
   */
  function Serve(session: Session, request: Option<Post>, fs: FileSystem, entropy: Entropy, writeOk: bool): (r: Response)
    requires entropy.Valid()
    ensures Held(r.session.csrfToken) && Held(r.session.fieldPrefix)
    ensures Held(session.csrfToken) ==> r.session.csrfToken == session.csrfToken
    ensures Held(session.fieldPrefix) ==> r.session.fieldPrefix == session.fieldPrefix
    ensures request.None? <==> r.outcome == NoSubmission
    ensures request.Some? ==> Effect(r.outcome, r.files) == Submit(EnsureSecrets(session, entropy), request.value, fs, writeOk)
    ensures request.Some? ==> (r.outcome.InvalidRequest? <==> !CsrfOk(request.value, EnsureSecrets(session, entropy).csrfToken))
    ensures !r.outcome.Saved? ==> r.files == fs
    ensures r.outcome.InvalidRequest? ==> r.session.captchaAnswer == session.captchaAnswer
    ensures !r.outcome.InvalidRequest? ==> r.session.captchaAnswer == Some(entropy.num1 + entropy.num2)
  {
    var s := EnsureSecrets(session, entropy);
    match request
    case None => Response(NoSubmission, fs, IssueCaptcha(s, entropy.num1, entropy.num2))
    case Some(post) =>
      var e := Submit(s, post, fs, writeOk);
      if e.outcome.InvalidRequest? then Response(e.outcome, e.files, s)
      else Response(e.outcome, e.files, IssueCaptcha(s, entropy.num1, entropy.num2))
  }

  /** The loop's order is `name`, `name-1`, `name-2`, ...: the note is saved under the first free one. */
  lemma SavedUnderFirstFree(session: Session, post: Post, fs: FileSystem, c: Candidate)
    requires Admitted(session, post)
    requires FirstFree(fs, PublicFolder, Base(Title(session, post)), FirstCounter, c)
    requires !PhpEmpty(Base(Title(session, post))) && |Base(Title(session, post))| <= MaxNameLength
    ensures Submit(session, post, fs, true).outcome == Saved(NotePath(PublicFolder, NameOf(Base(Title(session, post)), c)))
  {
    var base := Base(Title(session, post));
    FirstFreeUnique(fs, PublicFolder, base, FirstCounter, c, Resolve(fs, PublicFolder, base, FirstCounter));
  }

  /** The same title submitted twice is stored first as `name`, then as `name-1`. */
  lemma SameTitleTwice(s1: Session, p1: Post, s2: Session, p2: Post, fs: FileSystem)
    requires Admitted(s1, p1) && Admitted(s2, p2)
    requires Base(Title(s1, p1)) == Base(Title(s2, p2))
    requires var base := Base(Title(s1, p1));
             && !PhpEmpty(base) && |base| <= MaxNameLength
             && NotePath(PublicFolder, base) !in fs
             && NotePath(PublicFolder, Suffixed(base, 1)) !in fs
    ensures var base := Base(Title(s1, p1));
            var first := Submit(s1, p1, fs, true);
            && first.outcome == Saved(NotePath(PublicFolder, base))
            && Submit(s2, p2, first.files, true).outcome == Saved(NotePath(PublicFolder, Suffixed(base, 1)))
  {
    var base := Base(Title(s1, p1));
    SavedUnderFirstFree(s1, p1, fs, Plain);
    var files := Submit(s1, p1, fs, true).files;
    assert NotePath(PublicFolder, Suffixed(base, 1)) !in files by {
      NotePathInjective(PublicFolder, base, Suffixed(base, 1));
    }
    SavedUnderFirstFree(s2, p2, files, Numbered(1));
  }

  /**
   The length check sees the base name only: a taken 50-character base is
   stored under a 52-character name instead of being refused.
   */
  lemma LongNameSuffixedPastLimit(session: Session, post: Post, fs: FileSystem)
    requires Admitted(session, post)
    requires |Base(Title(session, post))| == MaxNameLength
    requires NotePath(PublicFolder, Base(Title(session, post))) in fs
    requires NotePath(PublicFolder, Suffixed(Base(Title(session, post)), 1)) !in fs
    ensures Submit(session, post, fs, true).outcome == Saved(NotePath(PublicFolder, Suffixed(Base(Title(session, post)), 1)))
    ensures |Suffixed(Base(Title(session, post)), 1)| == MaxNameLength + 2
  {
    var base := Base(Title(session, post));
    assert !PhpEmpty(base);
    SavedUnderFirstFree(session, post, fs, Numbered(1));
    assert Numbers.NatToString(1) == "1";
  }

  /** Only the prefixed CAPTCHA field is read: without it the submission is refused, whatever else it holds. */
  lemma UnprefixedCaptchaIgnored(session: Session, post: Post, fs: FileSystem, writeOk: bool)
    requires CsrfOk(post, session.csrfToken)
    requires PrefixOf(session) + CaptchaField !in post.answers
    ensures Submit(session, post, fs, writeOk) == Effect(IncorrectCaptcha, fs)
  {
  }

  /** The token check ends the request first: nothing written, no new CAPTCHA drawn. */
  lemma ForgedRequestChangesNothing(session: Session, post: Post, fs: FileSystem, entropy: Entropy, writeOk: bool)
    requires entropy.Valid()
    requires !CsrfOk(post, EnsureToken(session, entropy.tokenBytes).csrfToken)
    ensures var r := Serve(session, Some(post), fs, entropy, writeOk);
            r.outcome == InvalidRequest && r.files == fs && r.session.captchaAnswer == session.captchaAnswer
  {
  }
}

=== FILE: note_v3.dfy ===
/**
 olnote-v3.php: the `NoteManager` class. Its constructor creates the token and
 the prefix (`Challenge.EnsureSecrets`); `handleFormSubmission` is olnote-v2.php's POST block with
 `stripslashes` back in the sanitiser; `displayNotes` sorts every directory
 entry, dots included, and skips the dots while printing.
 */
module NoteV3 {
  import opened Wrappers
  import opened Store
  import opened FileName
  import opened Sanitizer
  import opened Challenge
  import opened Pipeline
  import Listing

  const TitleField := "filename"
  const ContentField := "content"
  const CaptchaField := "captcha"

  /** `$counter` starts at 1 and is appended from the loop's first pass. */
  const FirstCounter := 1

  /**
   The name the checks see: `preg_replace(..., basename($this->sanitizeInput($title)))`.
   The sanitiser and filter are olnote-v1.php's, so this is `NoteV1.Base` again.
   */
  function Base(title: string): (r: string)
    ensures AllNameChars(r, true)
  {
    Derive(SanitizeTrimFirst(title), true)
  }

  function Title(session: Session, post: Post): string {
    TextField(post, PrefixOf(session) + TitleField)
  }

  function Content(session: Session, post: Post): string {
    SanitizeTrimFirst(TextField(post, PrefixOf(session) + ContentField))
  }

  predicate Admitted(session: Session, post: Post) {
    CsrfOk(post, session.csrfToken) && CaptchaOk(post, PrefixOf(session) + CaptchaField, session.captchaAnswer)
  }

  /** `handleFormSubmission()`: nothing happens unless the request is a POST. */
  function HandleFormSubmission(session: Session, request: Option<Post>, fs: FileSystem, writeOk: bool): (e: Effect)
    ensures request.None? <==> e.outcome == NoSubmission
    ensures e.outcome.InvalidRequest? <==> request.Some? && !CsrfOk(request.value, session.csrfToken)
    ensures e.outcome.IncorrectCaptcha? <==>
              request.Some? && CsrfOk(request.value, session.csrfToken)
              && !CaptchaOk(request.value, PrefixOf(session) + CaptchaField, session.captchaAnswer)
    ensures e.outcome.EmptyFilename? <==>
              request.Some? && Admitted(session, request.value) && PhpEmpty(Base(Title(session, request.value)))
    ensures e.outcome.FilenameTooLong? <==>
              request.Some? && Admitted(session, request.value)
              && !PhpEmpty(Base(Title(session, request.value)))
              && |Base(Title(session, request.value))| > MaxNameLength
    ensures e.outcome.StorageError? <==>
              request.Some? && Admitted(session, request.value)
              && !PhpEmpty(Base(Title(session, request.value)))
              && |Base(Title(session, request.value))| <= MaxNameLength && !writeOk
    ensures !e.outcome.Saved? ==> e.files == fs
    ensures e.outcome.Saved? ==>
              && request.Some?
              && writeOk
              && e.outcome.link !in fs
              && DirectlyInside(e.outcome.link, PublicFolder)
              && e.files == fs[e.outcome.link := Content(session, request.value)]
  {
    match request
    case None => Effect(NoSubmission, fs)
    case Some(post) =>
      if !CsrfOk(post, session.csrfToken) then Effect(InvalidRequest, fs)
      else if !CaptchaOk(post, PrefixOf(session) + CaptchaField, session.captchaAnswer) then Effect(IncorrectCaptcha, fs)
      else
        SaveUnderFreeName(fs, PublicFolder, Base(Title(session, post)), FirstCounter, Content(session, post), writeOk)
  }

  /** The script around the class: construct, handle the form, then generate the next CAPTCHA. */
  function Serve(session: Session, request: Option<Post>, fs: FileSystem, entropy: Entropy, writeOk: bool): (r: Response)
    requires entropy.Valid()
    ensures Held(r.session.csrfToken) && Held(r.session.fieldPrefix)
    ensures request.None? <==> r.outcome == NoSubmission
    ensures Effect(r.outcome, r.files) == HandleFormSubmission(EnsureSecrets(session, entropy), request, fs, writeOk)
    ensures request.Some? ==> (r.outcome.InvalidRequest? <==> !CsrfOk(request.value, EnsureSecrets(session, entropy).csrfToken))
    ensures !r.outcome.Saved? ==> r.files == fs
    ensures r.outcome.InvalidRequest? ==> r.session.captchaAnswer == session.captchaAnswer
    ensures !r.outcome.InvalidRequest? ==> r.session.captchaAnswer == Some(entropy.num1 + entropy.num2)
  {
    var s := EnsureSecrets(session, entropy);
    match request
    case None => Response(NoSubmission, fs, IssueCaptcha(s, entropy.num1, entropy.num2))
    case Some(_) =>
      var e := HandleFormSubmission(s, request, fs, writeOk);
      if e.outcome.InvalidRequest? then Response(e.outcome, e.files, s)
      else Response(e.outcome, e.files, IssueCaptcha(s, entropy.num1, entropy.num2))
  }

  /** The note is saved under the first free candidate of `name`, `name-1`, `name-2`, ... */
  lemma SavedUnderFirstFree(session: Session, post: Post, fs: FileSystem, c: Candidate)
    requires Admitted(session, post)
    requires FirstFree(fs, PublicFolder, Base(Title(session, post)), FirstCounter, c)
    requires !PhpEmpty(Base(Title(session, post))) && |Base(Title(session, post))| <= MaxNameLength
    ensures HandleFormSubmission(session, Some(post), fs, true).outcome
              == Saved(NotePath(PublicFolder, NameOf(Base(Title(session, post)), c)))
  {
    var base := Base(Title(session, post));
    FirstFreeUnique(fs, PublicFolder, base, FirstCounter, c, Resolve(fs, PublicFolder, base, FirstCounter));
  }

  /** `displayNotes()`: sort all of `scandir`'s entries newest first, print the first five that are not dots. */
  function DisplayNotes(mtimes: map<string, int>, entries: seq<string>): (r: seq<string>)
    ensures |r| <= Listing.Limit
    ensures forall x :: x in r ==> x in entries && !Listing.IsDot(x)
    ensures Listing.NewestFirst(Listing.MTimeKey(mtimes, PublicFolder), r)
  {
    var key := Listing.MTimeKey(mtimes, PublicFolder);
    Listing.SortThenSkipIsNewestFive(key, entries);
    Listing.SortThenSkipDots(key, entries)
  }

  /** Sorting before dropping the dots shows the same five notes as dropping them first. */
  lemma DisplayNotesAsOlderVariants(mtimes: map<string, int>, entries: seq<string>)
    ensures DisplayNotes(mtimes, entries) == Listing.NewestFive(Listing.MTimeKey(mtimes, PublicFolder), entries)
  {
    Listing.SortThenSkipIsNewestFive(Listing.MTimeKey(mtimes, PublicFolder), entries);
  }

  /** The token check ends the request first: nothing written, no new CAPTCHA drawn. */
  lemma ForgedRequestChangesNothing(session: Session, post: Post, fs: FileSystem, entropy: Entropy, writeOk: bool)
    requires entropy.Valid()
    requires !CsrfOk(post, EnsureSecrets(session, entropy).csrfToken)
    ensures var r := Serve(session, Some(post), fs, entropy, writeOk);
            r.outcome == InvalidRequest && r.files == fs && r.session.captchaAnswer == session.captchaAnswer
  {
  }
}

=== FILE: note_v4.dfy ===
/**
 olnote-v4.php: `NoteManager` with private notes. The sanitiser runs
 `stripslashes` before `trim`, the name filter drops `.`, a private note is
 written to `pvt/` under its name plus a random hex suffix, a public note is
 written to `txt/<name>.txt` whether or not that file exists, and the listing
 shows the first five public entries in `scandir`'s ascending name order
 (`Listing.FirstFive`).
 */
module NoteV4 {
  import opened Wrappers
  import opened Numbers
  import opened Store
  import opened FileName
  import opened Sanitizer
  import opened Challenge
  import opened Pipeline

  const TitleField := "filename"
  const ContentField := "content"
  const CaptchaField := "captcha"
  const PrivateField := "is_private"

  /** The name the checks see; the filter here admits letters, digits, `_` and `-` only. */
  function Base(title: string): (r: string)
    ensures AllNameChars(r, false)
    ensures '.' !in r
  {
    var r := Derive(SanitizeStripFirst(title), false);
    NameCharsWithoutDot(r);
    r
  }

  function Title(session: Session, post: Post): string {
    TextField(post, PrefixOf(session) + TitleField)
  }

  function Content(session: Session, post: Post): string {
    SanitizeStripFirst(TextField(post, PrefixOf(session) + ContentField))
  }

  /** `isset($_POST[$prefix . 'is_private'])`: the box is ticked whatever value it sends. */
  predicate IsPrivate(session: Session, post: Post) {
    PrefixOf(session) + PrivateField in post.fields
  }

  predicate Admitted(session: Session, post: Post) {
    CsrfOk(post, session.csrfToken) && CaptchaOk(post, PrefixOf(session) + CaptchaField, session.captchaAnswer)
  }

  /** `$filename .= "-" . bin2hex(random_bytes(4))`: the name of a private note. */
  function PrivateName(base: string, suffix: seq<byte>): (r: string)
    requires |suffix| == 4
    ensures |r| == |base| + 9
    ensures r[..|base|] == base && r[|base|] == '-'
    ensures AllLowerHex(r[|base| + 1..]) && Unhex(r[|base| + 1..]) == suffix
    ensures AllNameChars(base, false) ==> AllNameChars(r, false)
  {
    var h := Hex(suffix);
    var r := base + "-" + h;
    assert r[|base| + 1..] == h;
    UnhexHex(suffix);
    assert forall i :: 0 <= i < |h| ==> IsLowerHex(h[i]);
    r
  }

  /** The folder and the name the note is written under. */
  function Destination(session: Session, post: Post, suffix: seq<byte>): (r: (string, string))
    requires |suffix| == 4
    ensures IsPrivate(session, post) ==> r == (PrivateFolder, PrivateName(Base(Title(session, post)), suffix))
    ensures !IsPrivate(session, post) ==> r == (PublicFolder, Base(Title(session, post)))
    ensures AllNameChars(r.1, false)
  {
    var base := Base(Title(session, post));
    if IsPrivate(session, post) then (PrivateFolder, PrivateName(base, suffix)) else (PublicFolder, base)
  }

  /**
   `handleFormSubmission()`. `suffix` is the `random_bytes(4)` a private note
   draws. A public note replaces any note of the same name.
   */
  function HandleFormSubmission(session: Session, request: Option<Post>, fs: FileSystem, suffix: seq<byte>,
                                writeOk: bool): (e: Effect)
    requires |suffix| == 4
    ensures request.None? <==> e.outcome == NoSubmission
    ensures e.outcome.InvalidRequest? <==> request.Some? && !CsrfOk(request.value, session.csrfToken)
    ensures e.outcome.IncorrectCaptcha? <==>
              request.Some? && CsrfOk(request.value, session.csrfToken)
              && !CaptchaOk(request.value, PrefixOf(session) + CaptchaField, session.captchaAnswer)
    ensures e.outcome.EmptyFilename? <==>
              request.Some? && Admitted(session, request.value) && PhpEmpty(Base(Title(session, request.value)))
    ensures e.outcome.FilenameTooLong? <==>
              request.Some? && Admitted(session, request.value)
              && !PhpEmpty(Base(Title(session, request.value)))
              && |Base(Title(session, request.value))| > MaxNameLength
    ensures e.outcome.StorageError? <==>
              request.Some? && Admitted(session, request.value)
              && !PhpEmpty(Base(Title(session, request.value)))
              && |Base(Title(session, request.value))| <= MaxNameLength && !writeOk
    ensures !e.outcome.Saved? ==> e.files == fs
    ensures e.outcome.Saved? ==>
              && request.Some?
              && writeOk
              && DirectlyInside(e.outcome.link, if IsPrivate(session, request.value) then PrivateFolder else PublicFolder)
              && e.files == fs[e.outcome.link := Content(session, request.value)]
    ensures e.outcome.Saved? ==>
              e.outcome.link == if IsPrivate(session, request.value)
                                then NotePath(PrivateFolder, PrivateName(Base(Title(session, request.value)), suffix))
                                else NotePath(PublicFolder, Base(Title(session, request.value)))
  {
    match request
    case None => Effect(NoSubmission, fs)
    case Some(post) =>
      if !CsrfOk(post, session.csrfToken) then Effect(InvalidRequest, fs)
      else if !CaptchaOk(post, PrefixOf(session) + CaptchaField, session.captchaAnswer) then Effect(IncorrectCaptcha, fs)
      else
        var base := Base(Title(session, post));
        var (folder, name) := Destination(session, post, suffix);
        NameCharsHaveNoSlash(name, false);
        NotePathInside(folder, name);
        CheckThenSave(fs, base, NotePath(folder, name), Content(session, post), writeOk)
  }

  /** The script around the class: construct, handle the form, then generate the next CAPTCHA. */
  function Serve(session: Session, request: Option<Post>, fs: FileSystem, entropy: Entropy, writeOk: bool): (r: Response)
    requires entropy.Valid()
    ensures Held(r.session.csrfToken) && Held(r.session.fieldPrefix)
    ensures request.None? <==> r.outcome == NoSubmission
    ensures Effect(r.outcome, r.files) == HandleFormSubmission(EnsureSecrets(session, entropy), request, fs, entropy.suffixBytes, writeOk)
    ensures request.Some? ==> (r.outcome.InvalidRequest? <==> !CsrfOk(request.value, EnsureSecrets(session, entropy).csrfToken))
    ensures !r.outcome.Saved? ==> r.files == fs
    ensures r.outcome.InvalidRequest? ==> r.session.captchaAnswer == session.captchaAnswer
    ensures !r.outcome.InvalidRequest? ==> r.session.captchaAnswer == Some(entropy.num1 + entropy.num2)
  {
    var s := EnsureSecrets(session, entropy);
    match request
    case None => Response(NoSubmission, fs, IssueCaptcha(s, entropy.num1, entropy.num2))
    case Some(_) =>
      var e := HandleFormSubmission(s, request, fs, entropy.suffixBytes, writeOk);
      if e.outcome.InvalidRequest? then Response(e.outcome, e.files, s)
      else Response(e.outcome, e.files, IssueCaptcha(s, entropy.num1, entropy.num2))
  }

  /** Admitted requests whose base name passes both checks. */
  predicate Accepted(session: Session, post: Post) {
    var base := Base(Title(session, post));
    Admitted(session, post) && !PhpEmpty(base) && |base| <= MaxNameLength
  }

  /**
   A public note goes to `txt/<name>.txt` with no collision search: an
   existing note of that name is replaced and no new file appears.
   */
  lemma PublicNoteOverwrites(session: Session, post: Post, fs: FileSystem, suffix: seq<byte>)
    requires |suffix| == 4
    requires Accepted(session, post) && !IsPrivate(session, post)
    requires NotePath(PublicFolder, Base(Title(session, post))) in fs
    ensures var e := HandleFormSubmission(session, Some(post), fs, suffix, true);
            && e.outcome == Saved(NotePath(PublicFolder, Base(Title(session, post))))
            && e.files.Keys == fs.Keys
            && e.files[e.outcome.link] == Content(session, post)
  {
    var e := HandleFormSubmission(session, Some(post), fs, suffix, true);
    var path := NotePath(PublicFolder, Base(Title(session, post)));
    assert e.outcome.Saved?;
    assert e.outcome.link == path && e.files == fs[path := Content(session, post)];
    OverwriteKeepsKeys(fs, path, Content(session, post));
  }

  /**
   A private note goes to `pvt/<name>-<8 hex digits>.txt`, a name of at most
   59 characters whose suffix spells the four random bytes.
   */
  lemma PrivateNoteName(session: Session, post: Post, fs: FileSystem, suffix: seq<byte>)
    requires |suffix| == 4
    requires Accepted(session, post) && IsPrivate(session, post)
    ensures var e := HandleFormSubmission(session, Some(post), fs, suffix, true);
            var name := PrivateName(Base(Title(session, post)), suffix);
            && e.outcome == Saved(NotePath(PrivateFolder, name))
            && |name| <= MaxNameLength + 9
  {
    var e := HandleFormSubmission(session, Some(post), fs, suffix, true);
    assert e.outcome.Saved?;
  }

  /**
   A private note is written outside the public folder: any `scandir` result
   that listed `txt/` before the request lists it after, so the listing never
   shows a private note.
   */
  lemma PrivateNoteUnlisted(session: Session, post: Post, fs: FileSystem, suffix: seq<byte>, writeOk: bool,
                            entries: seq<string>)
    requires |suffix| == 4
    requires IsPrivate(session, post)
    requires ListsFolder(fs, PublicFolder, entries)
    ensures ListsFolder(HandleFormSubmission(session, Some(post), fs, suffix, writeOk).files, PublicFolder, entries)
  {
    var e := HandleFormSubmission(session, Some(post), fs, suffix, writeOk);
    if e.outcome.Saved? {
      assert DirectlyInside(e.outcome.link, PrivateFolder);
      assert e.files == fs[e.outcome.link := Content(session, post)];
      FoldersDiffer();
      ListsFolderAfterWriteElsewhere(fs, PublicFolder, entries, PrivateFolder, e.outcome.link,
                                     Content(session, post));
    }
  }

  /** The token check ends the request first: nothing written, no new CAPTCHA drawn. */
  lemma ForgedRequestChangesNothing(session: Session, post: Post, fs: FileSystem, entropy: Entropy, writeOk: bool)
    requires entropy.Valid()
    requires !CsrfOk(post, EnsureSecrets(session, entropy).csrfToken)
    ensures var r := Serve(session, Some(post), fs, entropy, writeOk);
            r.outcome == InvalidRequest && r.files == fs && r.session.captchaAnswer == session.captchaAnswer
  {
  }
}

=== FILE: numbers.dfy ===
/**
 Decimal and hexadecimal renderings used by the pipeline: the collision
 counter appended to a file name (PHP's integer-to-string conversion) and
 `bin2hex`, which turns random bytes into CSRF tokens, field prefixes and the
 private-note suffix.
 */
module Numbers {

  newtype byte = x: int | 0 <= x < 256

  predicate IsDigit(c: char) {
    '0' <= c <= '9'
  }

  predicate AllDigits(s: string) {
    forall i :: 0 <= i < |s| ==> IsDigit(s[i])
  }

  function DigitChar(d: nat): (c: char)
    requires d < 10
    ensures IsDigit(c)
  {
    ('0' as int + d) as char
  }

  function DigitValue(c: char): (d: nat)
    requires IsDigit(c)
    ensures d < 10
    ensures DigitChar(d) == c
  {
    c as int - '0' as int
  }

  /** The decimal text of `n`, as PHP's `"-" . $counter` renders the counter. */
  function NatToString(n: nat): (r: string)
    ensures 1 <= |r|
    ensures AllDigits(r)
  {
    if n < 10 then [DigitChar(n)] else NatToString(n / 10) + [DigitChar(n % 10)]
  }

  /** Reads a string of decimal digits back as a number (the inverse of `NatToString`). */
  function ParseNat(s: string): (n: nat)
    requires AllDigits(s)
  {
    if s == [] then 0 else ParseNat(s[..|s| - 1]) * 10 + DigitValue(s[|s| - 1])
  }

  lemma {:induction false} ParseNatToString(n: nat)
    ensures ParseNat(NatToString(n)) == n
  {
    if n >= 10 {
      var s := NatToString(n);
      assert s[..|s| - 1] == NatToString(n / 10);
      ParseNatToString(n / 10);
    }
  }

  /** Distinct counters give distinct suffixes. */
  lemma NatToStringInjective(m: nat, n: nat)
    ensures NatToString(m) == NatToString(n) ==> m == n
  {
    ParseNatToString(m);
    ParseNatToString(n);
  }

  predicate IsLowerHex(c: char) {
    '0' <= c <= '9' || 'a' <= c <= 'f'
  }

  predicate AllLowerHex(s: string) {
    forall i :: 0 <= i < |s| ==> IsLowerHex(s[i])
  }

  function HexChar(d: nat): (c: char)
    requires d < 16
    ensures IsLowerHex(c)
  {
    if d < 10 then ('0' as int + d) as char else ('a' as int + d - 10) as char
  }

  function HexValue(c: char): (d: nat)
    requires IsLowerHex(c)
    ensures d < 16
    ensures HexChar(d) == c
  {
    if c <= '9' then c as int - '0' as int else c as int - 'a' as int + 10
  }

  /** PHP's `bin2hex`: two lower-case hexadecimal digits per byte, high nibble first. */
  function Hex(bytes: seq<byte>): (r: string)
    ensures |r| == 2 * |bytes|
    ensures AllLowerHex(r)
  {
    if bytes == [] then []
    else [HexChar(bytes[0] as int / 16), HexChar(bytes[0] as int % 16)] + Hex(bytes[1..])
  }

  /** PHP's `hex2bin` restricted to lower-case digits: the inverse of `Hex`. */
  function Unhex(s: string): (r: seq<byte>)
    requires |s| % 2 == 0
    requires AllLowerHex(s)
    ensures |r| * 2 == |s|
  {
    if s == [] then []
    else [(HexValue(s[0]) * 16 + HexValue(s[1])) as byte] + Unhex(s[2..])
  }

  lemma {:induction false} UnhexHex(bytes: seq<byte>)
    ensures Unhex(Hex(bytes)) == bytes
  {
    if bytes != [] {
      var h := Hex(bytes);
      var b := bytes[0] as int;
      assert HexValue(HexChar(b / 16)) == b / 16;
      assert HexValue(HexChar(b % 16)) == b % 16;
      assert h[2..] == Hex(bytes[1..]);
      UnhexHex(bytes[1..]);
    }
  }
}

=== FILE: pipeline.dfy ===
/**
 What one request produces: the status shown to the visitor, the file system
 after it, and the session it leaves behind.
 */
module Pipeline {
  import opened Wrappers
  import opened Store
  import FileName
  import Challenge

  /** The status fragment of the page; `NoSubmission` is a plain page view. */
  datatype Outcome =
    | NoSubmission
    | InvalidRequest
    | IncorrectCaptcha
    | EmptyFilename
    | FilenameTooLong
    | Saved(link: string)
    | StorageError

  /** The POST block's result: its status and the file system it leaves. */
  datatype Effect = Effect(outcome: Outcome, files: FileSystem)

  /** A whole request: status, file system and session afterwards. */
  datatype Response = Response(outcome: Outcome, files: FileSystem, session: Challenge.Session)

  /**
   The final step every variant shares: write the note and, on success, link to
   exactly the path written; on failure report the permissions error and keep
   the file system as it was.
   */
  function Save(fs: FileSystem, path: string, content: string, writeOk: bool): (e: Effect)
    ensures e.outcome == Saved(path) || e.outcome == StorageError
    ensures e.outcome.Saved? <==> writeOk
    ensures e.outcome.Saved? ==> e.files.Keys == fs.Keys + {path} && e.files[path] == content
    ensures e.outcome.Saved? ==> forall p :: p in fs && p != path ==> e.files[p] == fs[p]
    ensures e.outcome.StorageError? ==> e.files == fs
  {
    match Write(fs, path, content, writeOk)
    case Some(written) => Effect(Saved(path), written)
    case None => Effect(StorageError, fs)
  }

  /** `path` is `<folder>/<name>.txt` for a non-empty name of at most `maxLength` allowed characters. */
  ghost predicate NoteFileIn(path: string, folder: string, dotAllowed: bool, maxLength: nat) {
    exists name :: path == NotePath(folder, name)
                   && FileName.AllNameChars(name, dotAllowed)
                   && !FileName.PhpEmpty(name)
                   && |name| <= maxLength
  }

  lemma NoteFileInByName(folder: string, name: string, dotAllowed: bool, maxLength: nat)
    ensures FileName.AllNameChars(name, dotAllowed) && !FileName.PhpEmpty(name) && |name| <= maxLength ==>
              NoteFileIn(NotePath(folder, name), folder, dotAllowed, maxLength)
  {
  }

  /**
   The checks every variant makes before writing: PHP's `empty()` on `checked`
   refuses it as empty, more than 50 characters as too long, and only then is
   `content` written to `path`. No refusal writes anything.
   */
  function CheckThenSave(fs: FileSystem, checked: string, path: string, content: string, writeOk: bool): (e: Effect)
    ensures e.outcome.EmptyFilename? <==> FileName.PhpEmpty(checked)
    ensures e.outcome.FilenameTooLong? <==> !FileName.PhpEmpty(checked) && |checked| > FileName.MaxNameLength
    ensures e.outcome.StorageError? <==> !FileName.PhpEmpty(checked) && |checked| <= FileName.MaxNameLength && !writeOk
    ensures e.outcome.EmptyFilename? || e.outcome.FilenameTooLong? || e.outcome.StorageError? || e.outcome.Saved?
    ensures !e.outcome.Saved? ==> e.files == fs
    ensures e.outcome.Saved? ==> e.outcome.link == path && e.files == fs[path := content]
  {
    if FileName.PhpEmpty(checked) then Effect(EmptyFilename, fs)
    else if |checked| > FileName.MaxNameLength then Effect(FilenameTooLong, fs)
    else Save(fs, path, content, writeOk)
  }

  /**
   The save step of olnote-v2.php and olnote-v3.php: check the base name, then
   write under the first free candidate of `base`, `base-<first>`,
   `base-<first + 1>`, ... inside `folder`. An existing note is never replaced.
   */
  function SaveUnderFreeName(fs: FileSystem, folder: string, base: string, first: nat, content: string,
                             writeOk: bool): (e: Effect)
    requires FileName.AllNameChars(base, true)
    ensures e.outcome.EmptyFilename? <==> FileName.PhpEmpty(base)
    ensures e.outcome.FilenameTooLong? <==> !FileName.PhpEmpty(base) && |base| > FileName.MaxNameLength
    ensures e.outcome.StorageError? <==> !FileName.PhpEmpty(base) && |base| <= FileName.MaxNameLength && !writeOk
    ensures e.outcome.EmptyFilename? || e.outcome.FilenameTooLong? || e.outcome.StorageError? || e.outcome.Saved?
    ensures !e.outcome.Saved? ==> e.files == fs
    ensures e.outcome.Saved? ==>
              && e.outcome.link !in fs
              && DirectlyInside(e.outcome.link, folder)
              && e.files == fs[e.outcome.link := content]
  {
    var c := FileName.Resolve(fs, folder, base, first);
    var name := FileName.NameOf(base, c);
    assert FileName.AllNameChars(name, true) by {
      if c.Numbered? {
        FileName.SuffixedAlphabet(base, c.n, true);
      }
    }
    FileName.NameCharsHaveNoSlash(name, true);
    NotePathInside(folder, name);
    CheckThenSave(fs, base, NotePath(folder, name), content, writeOk)
  }
}

=== FILE: sanitizer.dfy ===
/**
 The three text transformations PHP applies to every submitted field -- `trim`,
 `stripslashes` and `htmlspecialchars($s, ENT_QUOTES, 'UTF-8')` -- together with
 the inverses they are meant to undo or be undone by (`addslashes`,
 `htmlspecialchars_decode`), and the three orders in which the variants compose
 them.
 */
module Sanitizer {

  /** The characters PHP's `trim` removes by default: " \t\n\r\0\x0B". */
  predicate IsTrimmed(c: char) {
    c == ' ' || c == '\t' || c == '\n' || c == '\r' || c == '\0' || c == 11 as char
  }

  /** `s` neither starts nor ends with a character `trim` removes. */
  predicate NoOuterSpace(s: string) {
    s == [] || (!IsTrimmed(s[0]) && !IsTrimmed(s[|s| - 1]))
  }

  function TrimStart(s: string): (r: string)
    ensures |r| <= |s| && r == s[|s| - |r|..]
    ensures forall i :: 0 <= i < |s| - |r| ==> IsTrimmed(s[i])
    ensures r == [] || !IsTrimmed(r[0])
  {
    if s != [] && IsTrimmed(s[0]) then TrimStart(s[1..]) else s
  }

  function TrimEnd(s: string): (r: string)
    ensures |r| <= |s| && r == s[..|r|]
    ensures forall i :: |r| <= i < |s| ==> IsTrimmed(s[i])
    ensures r == [] || !IsTrimmed(r[|r| - 1])
  {
    if s != [] && IsTrimmed(s[|s| - 1]) then TrimEnd(s[..|s| - 1]) else s
  }

  /** PHP's `trim`: the longest infix of `s` that starts and ends with a kept character. */
  function Trim(s: string): (r: string)
    ensures NoOuterSpace(r)
    ensures exists i, j :: 0 <= i <= j <= |s| && r == s[i..j]
                           && (forall k :: 0 <= k < i ==> IsTrimmed(s[k]))
                           && (forall k :: j <= k < |s| ==> IsTrimmed(s[k]))
  {
    var t := TrimStart(s);
    var r := TrimEnd(t);
    assert r == s[|s| - |t|..|s| - |t| + |r|];
    r
  }

  lemma TrimNoOuterSpace(s: string)
    requires NoOuterSpace(s)
    ensures Trim(s) == s
  {
  }

  lemma TrimIdempotent(s: string)
    ensures Trim(Trim(s)) == Trim(s)
  {
    TrimNoOuterSpace(Trim(s));
  }

  /**
   PHP's `stripslashes`: a backslash is dropped and the character after it kept
   literally, except that `\0` stands for the NUL character; a backslash at the
   very end is dropped.
   */
  function StripSlashes(s: string): (r: string)
    ensures |r| <= |s|
  {
    if s == [] then []
    else if s[0] != '\\' then [s[0]] + StripSlashes(s[1..])
    else if |s| == 1 then []
    else [if s[1] == '0' then '\0' else s[1]] + StripSlashes(s[2..])
  }

  lemma {:induction false} StripSlashesWithoutBackslash(s: string)
    requires '\\' !in s
    ensures StripSlashes(s) == s
  {
    if s != [] {
      assert '\\' !in s[1..];
      StripSlashesWithoutBackslash(s[1..]);
    }
  }

  /** PHP's `addslashes`, which `stripslashes` undoes. */
  function AddSlashes(s: string): (r: string)
    ensures |s| <= |r| <= 2 * |s|
  {
    if s == [] then []
    else if s[0] == '\0' then "\\0" + AddSlashes(s[1..])
    else if s[0] == '\\' || s[0] == '\'' || s[0] == '"' then ['\\', s[0]] + AddSlashes(s[1..])
    else [s[0]] + AddSlashes(s[1..])
  }

  lemma {:induction false} StripSlashesAddSlashes(s: string)
    ensures StripSlashes(AddSlashes(s)) == s
  {
    if s != [] {
      StripSlashesAddSlashes(s[1..]);
      var a := AddSlashes(s);
      if s[0] == '\0' || s[0] == '\\' || s[0] == '\'' || s[0] == '"' {
        assert a[2..] == AddSlashes(s[1..]);
      } else {
        assert a[1..] == AddSlashes(s[1..]);
      }
    }
  }

  /** The characters that may not appear raw in an HTML attribute or text node. */
  predicate IsMarkup(c: char) {
    c == '<' || c == '>' || c == '"' || c == '\''
  }

  predicate NoMarkup(s: string) {
    forall i :: 0 <= i < |s| ==> !IsMarkup(s[i])
  }

  /** The entity `htmlspecialchars` writes for one character under ENT_QUOTES and HTML 4.01. */
  function EscapeChar(c: char): string {
    if c == '&' then "&amp;"
    else if c == '"' then "&quot;"
    else if c == '\'' then "&#039;"
    else if c == '<' then "&lt;"
    else if c == '>' then "&gt;"
    else [c]
  }

  /** PHP's `htmlspecialchars($s, ENT_QUOTES, 'UTF-8')` over well-formed text. */
  function HtmlEscape(s: string): (r: string)
    ensures NoMarkup(r)
    ensures |s| <= |r|
  {
    if s == [] then [] else EscapeChar(s[0]) + HtmlEscape(s[1..])
  }

  /** Decodes one entity at the start of `s`, if there is one: the entity's character and its length. */
  function EntityAt(s: string): (r: (char, nat))
    requires s != []
    ensures 1 <= r.1 <= |s|
  {
    if |s| >= 5 && s[..5] == "&amp;" then ('&', 5)
    else if |s| >= 6 && s[..6] == "&quot;" then ('"', 6)
    else if |s| >= 6 && s[..6] == "&#039;" then ('\'', 6)
    else if |s| >= 4 && s[..4] == "&lt;" then ('<', 4)
    else if |s| >= 4 && s[..4] == "&gt;" then ('>', 4)
    else (s[0], 1)
  }

  /** PHP's `htmlspecialchars_decode($s, ENT_QUOTES)` for the entities `HtmlEscape` writes. */
  function HtmlDecode(s: string): (r: string)
    ensures |r| <= |s|
    decreases |s|
  {
    if s == [] then []
    else
      var e := EntityAt(s);
      [e.0] + HtmlDecode(s[e.1..])
  }

  lemma DecodeEscapeChar(c: char, t: string)
    ensures HtmlDecode(EscapeChar(c) + t) == [c] + HtmlDecode(t)
  {
    var e := EscapeChar(c);
    var s := e + t;
    assert s[..|e|] == e;
    assert s[|e|..] == t;
    if c == '&' || c == '"' || c == '\'' || c == '<' || c == '>' {
      assert s[1] == e[1];
      assert s[2] == e[2];
      assert EntityAt(s) == (c, |e|);
    } else {
      assert s[0] == c;
      assert EntityAt(s) == (c, 1);
    }
  }

  /** Escaping loses nothing: decoding gives back the text that was escaped. */
  lemma {:induction false} HtmlDecodeEscape(s: string)
    ensures HtmlDecode(HtmlEscape(s)) == s
  {
    if s != [] {
      HtmlDecodeEscape(s[1..]);
      DecodeEscapeChar(s[0], HtmlEscape(s[1..]));
    }
  }

  lemma {:induction false} EscapeKeepsNoOuterSpace(s: string)
    requires NoOuterSpace(s)
    ensures NoOuterSpace(HtmlEscape(s))
  {
    if s != [] {
      var r := HtmlEscape(s);
      assert r[0] == EscapeChar(s[0])[0];
      EscapeLast(s);
      EscapeCharEdges(s[0]);
      EscapeCharEdges(s[|s| - 1]);
    }
  }

  /** An entity starts with `&` and ends with `;`, so escaping neither adds nor hides outer space. */
  lemma EscapeCharEdges(c: char)
    ensures var e := EscapeChar(c);
            && 1 <= |e|
            && (IsTrimmed(e[0]) <==> IsTrimmed(c))
            && (IsTrimmed(e[|e| - 1]) <==> IsTrimmed(c))
  {
  }

  lemma {:induction false} EscapeLast(s: string)
    requires s != []
    ensures HtmlEscape(s)[|HtmlEscape(s)| - 1] == EscapeChar(s[|s| - 1])[|EscapeChar(s[|s| - 1])| - 1]
  {
    var t := HtmlEscape(s[1..]);
    assert HtmlEscape(s) == EscapeChar(s[0]) + t;
    if |s| > 1 {
      EscapeLast(s[1..]);
      assert |t| >= 1;
      assert HtmlEscape(s)[|HtmlEscape(s)| - 1] == t[|t| - 1];
      assert s[1..][|s[1..]| - 1] == s[|s| - 1];
    } else {
      assert t == [];
    }
  }

  /** `trim`, then `stripslashes`, then `htmlspecialchars`: olnote-v1.php and olnote-v3.php. */
  function SanitizeTrimFirst(s: string): (r: string)
    ensures NoMarkup(r)
    ensures HtmlDecode(r) == StripSlashes(Trim(s))
  {
    var r := HtmlEscape(StripSlashes(Trim(s)));
    HtmlDecodeEscape(StripSlashes(Trim(s)));
    r
  }

  /** `trim`, then `htmlspecialchars`, with no `stripslashes`: olnote-v2.php. */
  function SanitizeNoStrip(s: string): (r: string)
    ensures NoMarkup(r)
    ensures HtmlDecode(r) == Trim(s)
    ensures NoOuterSpace(r)
  {
    var r := HtmlEscape(Trim(s));
    HtmlDecodeEscape(Trim(s));
    EscapeKeepsNoOuterSpace(Trim(s));
    r
  }

  /** `stripslashes`, then `trim`, then `htmlspecialchars`: olnote-v4.php. */
  function SanitizeStripFirst(s: string): (r: string)
    ensures NoMarkup(r)
    ensures HtmlDecode(r) == Trim(StripSlashes(s))
    ensures NoOuterSpace(r)
  {
    var r := HtmlEscape(Trim(StripSlashes(s)));
    HtmlDecodeEscape(Trim(StripSlashes(s)));
    EscapeKeepsNoOuterSpace(Trim(StripSlashes(s)));
    r
  }
}

=== FILE: store.dfy ===
/**
 The note folders as an abstract file system: a map from path to file
 contents. A note lives at `<folder>/<name>.txt`; writing it either replaces
 that one entry or fails as a whole.
 */
module Store {
  import opened Wrappers

  type FileSystem = map<string, string>

  /** The public folder every variant writes to and lists. */
  const PublicFolder := "txt"

  /** The private folder of olnote-v4.php, never listed. */
  const PrivateFolder := "pvt"

  /** The two folders are distinct names of their own, not paths. */
  lemma FoldersDiffer()
    ensures '/' !in PublicFolder && '/' !in PrivateFolder && PublicFolder != PrivateFolder
  {
    assert PublicFolder[0] != PrivateFolder[0];
  }

  /** `<folder>/<name>.txt`, the path a note called `name` is stored under. */
  function NotePath(folder: string, name: string): string {
    folder + "/" + name + ".txt"
  }

  /** `path` names an entry directly inside `folder`, neither `.` nor `..`, and in no sub-folder. */
  predicate DirectlyInside(path: string, folder: string) {
    && |folder| + 1 < |path|
    && path[..|folder| + 1] == folder + "/"
    && '/' !in path[|folder| + 1..]
    && path[|folder| + 1..] != "."
    && path[|folder| + 1..] != ".."
  }

  /** A name without `/` cannot lead the note's path out of its folder. */
  lemma NotePathInside(folder: string, name: string)
    requires '/' !in name
    ensures DirectlyInside(NotePath(folder, name), folder)
  {
    var p := NotePath(folder, name);
    assert p[..|folder| + 1] == folder + "/";
    assert p[|folder| + 1..] == name + ".txt";
  }

  lemma NotePathInjective(folder: string, a: string, b: string)
    ensures NotePath(folder, a) == NotePath(folder, b) ==> a == b
  {
    if NotePath(folder, a) == NotePath(folder, b) {
      assert |a| == |b|;
      assert a == NotePath(folder, a)[|folder| + 1..|folder| + 1 + |a|];
      assert b == NotePath(folder, b)[|folder| + 1..|folder| + 1 + |b|];
    }
  }

  lemma FolderPrefix(path: string, folder: string)
    ensures DirectlyInside(path, folder) ==>
              path[|folder|] == '/' && forall i :: 0 <= i < |folder| ==> path[i] == folder[i]
  {
    if DirectlyInside(path, folder) {
      assert path[|folder|] == (folder + "/")[|folder|];
      assert forall i :: 0 <= i < |folder| ==> path[i] == (folder + "/")[i];
    }
  }

  /** A file directly inside one folder is not inside a folder with a different name. */
  lemma InsideOneFolder(path: string, a: string, b: string)
    requires DirectlyInside(path, a) && DirectlyInside(path, b)
    requires '/' !in a && '/' !in b
    ensures a == b
  {
    FolderPrefix(path, a);
    FolderPrefix(path, b);
    if |a| < |b| {
      assert false;
    } else if |b| < |a| {
      assert false;
    }
  }

  /**
   `file_put_contents($path, $content)`: `None` when the write fails; otherwise
   the file system in which `path` holds exactly `content` and nothing else changed.
   */
  function Write(fs: FileSystem, path: string, content: string, writeOk: bool): (r: Option<FileSystem>)
    ensures r.Some? <==> writeOk
    ensures r.Some? ==> r.value.Keys == fs.Keys + {path} && r.value[path] == content
    ensures r.Some? ==> forall p :: p in fs && p != path ==> r.value[p] == fs[p]
  {
    if writeOk then Some(fs[path := content]) else None
  }

  /** Writing a path that exists replaces its contents and adds no file. */
  lemma OverwriteKeepsKeys(fs: FileSystem, path: string, content: string)
    requires path in fs
    ensures fs[path := content].Keys == fs.Keys
    ensures fs[path := content][path] == content
  {
  }

  /**
   The order `scandir` sorts by: `strcoll($a, $b) < 0` under the C locale, PHP's
   default, where it is byte order. The first differing character decides, and a
   proper prefix sorts first. Comparing code points orders UTF-8 text as its bytes do.
   */
  predicate NameBefore(a: string, b: string) {
    if a == [] then b != []
    else if b == [] then false
    else a[0] < b[0] || (a[0] == b[0] && NameBefore(a[1..], b[1..]))
  }

  /** `NameBefore` is a strict order: never both ways, and never a name before itself. */
  lemma {:induction false} NameBeforeStrict(a: string, b: string)
    ensures NameBefore(a, b) ==> !NameBefore(b, a) && a != b
  {
    if a != [] && b != [] && a[0] == b[0] {
      NameBeforeStrict(a[1..], b[1..]);
      if NameBefore(a, b) {
        assert a[1..] != b[1..];
      }
    }
  }

  /** `scandir`'s default order: names ascending, each name once. */
  predicate AscendingNames(entries: seq<string>) {
    forall i, j :: 0 <= i < j < |entries| ==> NameBefore(entries[i], entries[j])
  }

  /**
   `entries` is what `scandir(folder)` returns for `fs`: `.` and `..`, and the
   name of every file stored directly in `folder`, sorted ascending by name.
   */
  predicate ListsFolder(fs: FileSystem, folder: string, entries: seq<string>) {
    && AscendingNames(entries)
    && "." in entries
    && ".." in entries
    && (forall i :: 0 <= i < |entries| && entries[i] != "." && entries[i] != ".." ==>
          '/' !in entries[i] && folder + "/" + entries[i] in fs)
    && (forall p :: p in fs && DirectlyInside(p, folder) ==> p[|folder| + 1..] in entries)
  }

  /** Writing a file of another folder leaves a folder's `scandir` result as it was. */
  lemma ListsFolderAfterWriteElsewhere(fs: FileSystem, folder: string, entries: seq<string>,
                                       other: string, path: string, content: string)
    requires '/' !in folder && '/' !in other && folder != other
    requires DirectlyInside(path, other)
    requires ListsFolder(fs, folder, entries)
    ensures ListsFolder(fs[path := content], folder, entries)
  {
    var after := fs[path := content];
    forall p | p in after && DirectlyInside(p, folder)
      ensures p[|folder| + 1..] in entries
    {
      if p == path {
        InsideOneFolder(p, folder, other);
      }
    }
  }
}

=== FILE: variants.dfy ===
/**
 How the four variants differ where their code differs: the order of the
 sanitising steps, and what that order does to the same input.
 */
module Variants {
  import opened Wrappers
  import opened Store
  import opened FileName
  import opened Sanitizer
  import opened Challenge
  import opened Pipeline
  import NoteV2
  import NoteV3
  import NoteV4

  /** Without a backslash, `stripslashes` changes nothing, so the three sanitisers agree. */
  lemma SanitizersAgreeWithoutBackslash(s: string)
    requires '\\' !in s
    ensures SanitizeTrimFirst(s) == SanitizeNoStrip(s) == SanitizeStripFirst(s)
  {
    StripSlashesWithoutBackslash(s);
    var t := Trim(s);
    assert '\\' !in t;
    StripSlashesWithoutBackslash(t);
  }

  /**
   olnote-v3.php's submission is olnote-v2.php's with `stripslashes` added:
   on titles and notes without a backslash both store the same note under the
   same name with the same status.
   */
  lemma V3AgreesWithV2WithoutBackslash(session: Session, post: Post, fs: FileSystem, writeOk: bool)
    requires '\\' !in NoteV2.Title(session, post)
    requires '\\' !in TextField(post, PrefixOf(session) + NoteV2.ContentField)
    ensures NoteV3.HandleFormSubmission(session, Some(post), fs, writeOk) == NoteV2.Submit(session, post, fs, writeOk)
  {
    assert NoteV3.Base(NoteV3.Title(session, post)) == NoteV2.Base(NoteV2.Title(session, post)) by {
      SanitizersAgreeWithoutBackslash(NoteV2.Title(session, post));
    }
    assert NoteV3.Content(session, post) == NoteV2.Content(session, post) by {
      SanitizersAgreeWithoutBackslash(TextField(post, PrefixOf(session) + NoteV2.ContentField));
    }
    SameSavedTextSameEffect(session, post, fs, writeOk);
  }

  /** The two submissions differ only in the sanitiser: equal name and text give equal effects. */
  lemma SameSavedTextSameEffect(session: Session, post: Post, fs: FileSystem, writeOk: bool)
    requires NoteV3.Base(NoteV3.Title(session, post)) == NoteV2.Base(NoteV2.Title(session, post))
    requires NoteV3.Content(session, post) == NoteV2.Content(session, post)
    ensures NoteV3.HandleFormSubmission(session, Some(post), fs, writeOk) == NoteV2.Submit(session, post, fs, writeOk)
  {
  }

  /** `\ x` starts with a backslash and ends with `x`, so `trim` keeps it whole. */
  lemma BackslashSpaceTrimmed()
    ensures Trim("\\ x") == "\\ x"
  {
    var s := "\\ x";
    assert s[0] == '\\' && s[|s| - 1] == 'x';
    TrimNoOuterSpace(s);
  }

  /** The backslash protects the space: `stripslashes` leaves ` x`. */
  lemma BackslashSpaceStripped()
    ensures StripSlashes("\\ x") == " x"
  {
    var s := "\\ x";
    assert s[0] == '\\' && s[1] == ' ' && s[2..] == "x";
    assert StripSlashes("x") == "x" by {
      assert "x"[1..] == [];
    }
  }

  /** ` x` holds nothing `htmlspecialchars` rewrites. */
  lemma SpaceXEscaped()
    ensures HtmlEscape(" x") == " x"
  {
    assert " x"[0] == ' ' && " x"[1..] == "x";
    assert HtmlEscape("x") == "x" by {
      assert "x"[1..] == [];
    }
  }

  /**
   Trimming before `stripslashes` (olnote-v1.php, olnote-v3.php) can leave a
   space the backslash protected at the edge of the note; stripping first
   (olnote-v4.php) trims it away.
   */
  lemma TrimFirstKeepsEscapedSpace()
    ensures SanitizeTrimFirst("\\ x") == " x"
    ensures SanitizeStripFirst("\\ x") != " x"
  {
    BackslashSpaceTrimmed();
    BackslashSpaceStripped();
    SpaceXEscaped();
    assert !NoOuterSpace(" x");
  }

  /** `stripslashes` shortens every text that holds a backslash. */
  lemma {:induction false} StripSlashesShortens(s: string)
    requires '\\' in s
    ensures |StripSlashes(s)| < |s|
  {
    if s[0] != '\\' {
      assert '\\' in s[1..];
      StripSlashesShortens(s[1..]);
    }
  }

  /** `stripslashes` leaves a text as it is exactly when it holds no backslash. */
  lemma StripSlashesFixed(s: string)
    ensures StripSlashes(s) == s <==> '\\' !in s
  {
    if '\\' in s {
      StripSlashesShortens(s);
    } else {
      StripSlashesWithoutBackslash(s);
    }
  }

  /** Equal escapes come from equal texts, since decoding recovers the text. */
  lemma EscapeInjective(a: string, b: string)
    ensures HtmlEscape(a) == HtmlEscape(b) ==> a == b
  {
    HtmlDecodeEscape(a);
    HtmlDecodeEscape(b);
  }

  /**
   olnote-v2.php stores the same text as olnote-v1.php and olnote-v3.php
   exactly when the trimmed input holds no backslash; with one, only
   olnote-v2.php keeps it.
   */
  lemma V2DiffersExactlyOnBackslash(s: string)
    ensures SanitizeNoStrip(s) == SanitizeTrimFirst(s) <==> '\\' !in Trim(s)
  {
    EscapeInjective(Trim(s), StripSlashes(Trim(s)));
    StripSlashesFixed(Trim(s));
  }

  /** Without a dot, both name filters agree. */
  lemma {:induction false} FiltersAgreeWithoutDot(s: string)
    requires '.' !in s
    ensures Filter(s, false) == Filter(s, true)
  {
    if s != [] {
      assert '.' !in s[1..];
      FiltersAgreeWithoutDot(s[1..]);
    }
  }

  /** olnote-v4.php's filter gives another name than the others' exactly when the text holds a dot. */
  lemma V4FilterDiffersExactlyOnDot(s: string)
    ensures Filter(s, false) == Filter(s, true) <==> '.' !in s
  {
    if '.' in s {
      assert multiset(s)['.'] > 0;
      assert multiset(Filter(s, true))['.'] > 0;
      assert multiset(Filter(s, false))['.'] == 0;
    } else {
      FiltersAgreeWithoutDot(s);
    }
  }
}

=== FILE: wrappers.dfy ===
/** The optional-value datatype shared by every module of the note pipeline. */
module Wrappers {

  /** A value that may be absent, as a PHP variable that may be unset. */
  datatype Option<+T> = None | Some(value: T) {

    /** Returns the held value, or `default` when there is none. */
    function GetOr(default: T): T {
      match this
      case Some(v) => v
      case None => default
    }
  }
}
